=== FILE: README.md ===
# JSettlers hex A* path search, bricklayer strategy and test tile, in Dafny

This project models three pieces of JSettlers and proves properties of the models.

**`HexAStar.findPath`** is the A* search on a hex grid. It works over flat per-node buffers that are allocated once and reused by every call:
- a `BitSet` of open nodes and one of closed nodes;
- two floats per node: cost so far, then heuristic estimate;
- three ints per node: depth, parent and heap slot.

The map (`IAStarPathMap`) is an oracle. It answers three questions: is a tile blocked for a requester, which connectivity partition is a tile in, and what does one step cost. The open queue (`AStarMinHeap`) is an abstract priority queue keyed by `getRank`.

The model follows the Java control flow:
1. Validation: a start out of bounds gives `InvalidStartPositionException`. An unreachable or degenerate request gives `null`.
2. The heuristic weights are swapped.
3. The buffers are reset and the start node is seeded.
4. The main loop extracts a node, closes it and relaxes its neighbours.
5. On success, the path is rebuilt backwards along the parent chain.

What is proved about it:
- the flat-index and slot arithmetic round-trips;
- the relaxation cases;
- a search invariant that the loop keeps, with a termination measure;
- soundness of a returned path: it is a walk of allowed steps from the start, of length `depth[target]`, ending at the target and never revisiting the start;
- completeness of `null`: when the queue runs dry, no walk of allowed steps from the start reaches the target.

**`BricklayerStrategy`** is a five-state worker state machine. It is modelled as a datatype whose working states carry the job. The answers of the construction site and the movement layer are parameters. The requests the strategy makes are returned as a list of effects. A balance lemma relates pool registrations, deregistrations and accepted jobs to whether the strategy is jobless.

**`TestTile`** is a graphics-test tile. The model covers its landscape classification by height and river flag, and its position-only `equals`.

Floats are modelled as Dafny `real`s. Java `short` and `byte` are subset types of `int`. The `(short)` cast and 32-bit `int` wrap-around are written out where the code depends on them.

Files:
- `wrappers.dfy`: `Option`.
- `hex_grid.dfy`: coordinates, the narrowing cast, flat indices and slot layout.
- `path_map.dfy`: the map oracle, allowed steps and walks.
- `heuristic.dfy`: the weighted heuristic and the weight swap.
- `min_queue.dfy`: the abstract open queue.
- `hex_astar.dfy`: the engine and the search.
- `bricklayer.dfy`: the bricklayer state machine.
- `test_tile.dfy`: the test tile.

Two behaviours of the search that the model keeps as written:
- **`blockedAtStart`.** The flag does not only let the first step leave a blocked start: in `isValidPosition` (HexAStar.java line 190) it lifts the blocking test for every neighbour considered during that search. `PathMap.IsValidPosition` models it as written. `HexAStar.FoundPathAvoidsBlocked` and `HexAStar.OpenedAreAllowed` only promise a path free of blocked tiles when the start is free.
- **The weight swap.** The weights are swapped only after validation has passed (HexAStar.java lines 73-75), so rejected requests leave them unchanged. `HexAStar.FindPath` and `HexAStar.RunSearches` state this.

A behaviour of the bricklayer that the model keeps as written: `checkPathStepPreconditions` makes the strategy jobless and registers it with the jobless pool again whenever it still holds a finished site, even in DEAD_OBJECT. `Bricklayer.DeadObjectStable` states this.

## Model

| member | source | states |
|---|---|---|
| HexGrid.ToShort | jsettlers.logic/src/jsettlers/algorithms/path/astar/normal/HexAStar.java:100-101 | the `(short)` cast keeps the value modulo 2^16 and is the identity on values already in `short` range |
| HexGrid.NoWrapInBounds | jsettlers.logic/src/jsettlers/algorithms/path/astar/normal/HexAStar.java:100-103 | from an in-bounds coordinate and a byte delta, a cast neighbour that lands in bounds did not wrap, so the bounds test on the cast value is the test on the true sum |
| HexGrid.FlatIdx | jsettlers.logic/src/jsettlers/algorithms/path/astar/normal/HexAStar.java:201-203 | `y * width + x` of in-bounds coordinates is a node index below `width * height` |
| HexGrid.GetX | jsettlers.logic/src/jsettlers/algorithms/path/astar/normal/HexAStar.java:205-207 | the x coordinate of a node index is a column of the grid |
| HexGrid.GetY | jsettlers.logic/src/jsettlers/algorithms/path/astar/normal/HexAStar.java:209-211 | the y coordinate of a node index is a row of the grid |
| HexGrid.CoordsOfFlatIdx | jsettlers.logic/src/jsettlers/algorithms/path/astar/normal/HexAStar.java:201-211 | `getX(getFlatIdx(x, y)) == x` and `getY(getFlatIdx(x, y)) == y` for every in-bounds (x, y) |
| HexGrid.FlatIdxOfCoords | jsettlers.logic/src/jsettlers/algorithms/path/astar/normal/HexAStar.java:201-211 | `getFlatIdx(getX(i), getY(i)) == i` for every node index i |
| HexGrid.FlatIdxInjective | jsettlers.logic/src/jsettlers/algorithms/path/astar/normal/HexAStar.java:201-203 | different in-bounds coordinates have different flat indices |
| HexGrid.CostsIdx | jsettlers.logic/src/jsettlers/algorithms/path/astar/normal/HexAStar.java:158-160 | the cost slot is field 0 of node i in a two-field layout (remainder 0, quotient i by 2) |
| HexGrid.HeuristicIdx | jsettlers.logic/src/jsettlers/algorithms/path/astar/normal/HexAStar.java:154-156 | the heuristic slot is field 1 of node i in a two-field layout |
| HexGrid.DepthIdx | jsettlers.logic/src/jsettlers/algorithms/path/astar/normal/HexAStar.java:162-164 | the depth slot is field 0 of node i in a three-field layout |
| HexGrid.ParentIdx | jsettlers.logic/src/jsettlers/algorithms/path/astar/normal/HexAStar.java:166-168 | the parent slot is field 1 of node i in a three-field layout |
| HexGrid.HeapArrayIdx | jsettlers.logic/src/jsettlers/algorithms/path/astar/normal/HexAStar.java:170-172 | the heap-slot slot is field 2 of node i in a three-field layout |
| HexGrid.SlotsDisjoint | jsettlers.logic/src/jsettlers/algorithms/path/astar/normal/HexAStar.java:154-172 | for nodes below n, every slot fits the buffers of size 2n and 3n, the fields of one node are pairwise distinct, and the same field of two different nodes never collides |
| PathMap.NeighborIsStep | jsettlers.logic/src/jsettlers/algorithms/path/astar/normal/HexAStar.java:99-104 | a cast neighbour is valid iff the uncast one is; a valid one equals the plain sum and is an allowed step |
| PathMap.WalkAvoidsBlocked | jsettlers.logic/src/jsettlers/algorithms/path/astar/normal/HexAStar.java:189-191 | when the start is free, every tile of a walk of allowed steps is in bounds and not blocked |
| Heuristic.HeuristicCost | jsettlers.logic/src/jsettlers/algorithms/path/astar/normal/HexAStar.java:228-243 | the estimate lies between the larger weighted axis distance and the sum of both |
| Heuristic.HeuristicZeroIffAtTarget | jsettlers.logic/src/jsettlers/algorithms/path/astar/normal/HexAStar.java:228-243 | with positive weights the estimate is non-negative, and zero iff the position is the target |
| Heuristic.HeuristicByDirection | jsettlers.logic/src/jsettlers/algorithms/path/astar/normal/HexAStar.java:234-242 | with positive weights: displacement the same way on both axes gives the larger weighted distance, anything else gives their sum |
| Heuristic.SwappedFactorsMirror | jsettlers.logic/src/jsettlers/algorithms/path/astar/normal/HexAStar.java:73-75 | the estimate with swapped weights equals the estimate on the grid mirrored along its diagonal |
| Heuristic.AfterSwapsParity | jsettlers.logic/src/jsettlers/algorithms/path/astar/normal/HexAStar.java:37 | after k swaps the weights are (1.01, 1.02) iff k is even, and (1.02, 1.01) iff k is odd |
| MinQueue.SetHeapIdx | jsettlers.logic/src/jsettlers/algorithms/path/astar/normal/HexAStar.java:224-226 | the stored slot is read back by `getHeapIdx`; no other entry changes |
| MinQueue.Insert | jsettlers.logic/src/jsettlers/algorithms/path/astar/normal/HexAStar.java:124 | the queue gains exactly the new id, stays duplicate-free, every queued id knows its slot, and only the new id's heap-slot field changes |
| MinQueue.DeleteMin | jsettlers.logic/src/jsettlers/algorithms/path/astar/normal/HexAStar.java:87 | returns a queued id whose rank (cost plus heuristic, `getRank`) is minimal, removes exactly that id, keeps every slot correct, and touches only heap-slot fields |
| HexAStar.Create | jsettlers.logic/src/jsettlers/algorithms/path/astar/normal/HexAStar.java:39-50 | construction succeeds iff the 32-bit allocation sizes are non-negative; a new engine has buffers for `width * height` nodes, an empty queue and weights (1.01, 1.02) |
| HexAStar.AllocationSizes | jsettlers.logic/src/jsettlers/algorithms/path/astar/normal/HexAStar.java:45-49 | for a cell count that is a product of two shorts, the 32-bit sizes `w*h`, `w*h*2` and `w*h*3` are all non-negative iff `0 <= w*h` and `3*w*h` fits in an `int` |
| HexAStar.Validate | jsettlers.logic/src/jsettlers/algorithms/path/astar/normal/HexAStar.java:59-71 | start out of bounds iff the start-position error; `null` iff the start is in bounds and the target is out of bounds, blocked, in another partition or equal to the start; otherwise the search proceeds with `blockedAtStart` = start blocked |
| HexAStar.Relax | jsettlers.logic/src/jsettlers/algorithms/path/astar/normal/HexAStar.java:103-127 | a closed neighbour is untouched. An open one changes only on strict improvement, taking the new cost, parent and depth while keeping its heuristic. An unseen one gets all four fields, its open bit and one queue entry. Every other node keeps its cost, heuristic, depth and parent |
| HexAStar.Improve | jsettlers.logic/src/jsettlers/algorithms/path/astar/normal/HexAStar.java:109-117 | the improvement branch writes cost, depth and parent of one node and nothing else |
| HexAStar.OpenNew | jsettlers.logic/src/jsettlers/algorithms/path/astar/normal/HexAStar.java:118-127 | the new-node branch sets the four fields and the open bit and adds the node to the queue exactly once |
| HexAStar.RelaxKeepsInv | jsettlers.logic/src/jsettlers/algorithms/path/astar/normal/HexAStar.java:99-127 | relaxing direction k of the node being expanded keeps the search invariant and leaves every allowed neighbour in directions 0..k open |
| HexAStar.Expand | jsettlers.logic/src/jsettlers/algorithms/path/astar/normal/HexAStar.java:99-130 | after the neighbour loop the search invariant holds with the node fully expanded, and no closed bit changed |
| HexAStar.CountFalseSet | jsettlers.logic/src/jsettlers/algorithms/path/astar/normal/HexAStar.java:92 | closing an unclosed node lowers the number of unclosed nodes by one (the loop's termination measure) |
| HexAStar.CloseKeepsInv | jsettlers.logic/src/jsettlers/algorithms/path/astar/normal/HexAStar.java:86-92 | closing the extracted node keeps the invariant; the node was queued and not yet closed |
| HexAStar.InitSearch | jsettlers.logic/src/jsettlers/algorithms/path/astar/normal/HexAStar.java:179-187 | after the reset, only the start is open and queued, nothing is closed, the start has cost 0, depth 0 and parent -1 and its heuristic estimate, and every other node keeps the previous call's cost, heuristic, depth and parent |
| HexAStar.Search | jsettlers.logic/src/jsettlers/algorithms/path/astar/normal/HexAStar.java:86-131 | the loop terminates; the search invariant holds at exit; it reports success iff the target was closed, and otherwise the queue is empty |
| HexAStar.Reconstruct | jsettlers.logic/src/jsettlers/algorithms/path/astar/normal/HexAStar.java:133-146 | the rebuilt path has `depth[target] > 0` entries, ends at the target, is a walk of allowed steps from the start, and never contains the start |
| HexAStar.ReconstructStep | jsettlers.logic/src/jsettlers/algorithms/path/astar/normal/HexAStar.java:140-144 | one step back along the parent chain reaches an open node one level up, and the written entry is one allowed step from it |
| HexAStar.OpenedAreAllowed | jsettlers.logic/src/jsettlers/algorithms/path/astar/normal/HexAStar.java:103 | every opened node other than the start is a valid position; with a free start, no blocked tile is ever opened |
| HexAStar.ExhaustedIsSealed | jsettlers.logic/src/jsettlers/algorithms/path/astar/normal/HexAStar.java:86-131 | when the queue runs dry without closing the target, the target is not open and every open node has all its allowed neighbours open |
| HexAStar.SealedStep | jsettlers.logic/src/jsettlers/algorithms/path/astar/normal/HexAStar.java:99-127 | in an exhausted search, an allowed step from an open node leads to an open node that is not the target |
| HexAStar.WalkStaysExplored | jsettlers.logic/src/jsettlers/algorithms/path/astar/normal/HexAStar.java:151 | in an exhausted search, no walk of allowed steps from an open node ever reaches the target, so `null` is correct |
| HexAStar.FindPath | jsettlers.logic/src/jsettlers/algorithms/path/astar/normal/HexAStar.java:59-152 | a rejected request returns its validation outcome and leaves the engine unchanged. An accepted one swaps the weights once. A returned path ends at the target, is a walk of allowed steps from the start and excludes the start. `null` after an accepted request means no such walk reaches the target |
| HexAStar.FindPathTo | jsettlers.logic/src/jsettlers/algorithms/path/astar/normal/HexAStar.java:53-56 | a search from the requester's own position with every promise of `findPath` for it: the start-position error iff that position is out of bounds; a rejected request returns the validation outcome and leaves the engine unchanged; an accepted one swaps the weights and answers a path or `null`; a returned path is a walk from that position to the target that never revisits it; `null` means no walk reaches the target |
| HexAStar.FoundPathAvoidsBlocked | jsettlers.logic/src/jsettlers/algorithms/path/astar/normal/HexAStar.java:67-71 | when the start is free, a returned path only crosses in-bounds, unblocked tiles |
| HexAStar.RunSearches | jsettlers.logic/src/jsettlers/algorithms/path/astar/normal/HexAStar.java:73-75 | over a sequence of calls the weights are swapped once per accepted request; from (1.01, 1.02) they are back there iff the number of accepted requests is even; rejected requests return their validation outcome |
| Bricklayer.MakeJobless | jsettlers.logic/src/jsettlers/logic/movable/strategies/BricklayerStrategy.java:38-44 | the strategy becomes JOBLESS with no site, and its only effect is one registration with the jobless pool |
| Bricklayer.New | jsettlers.logic/src/jsettlers/logic/movable/strategies/BricklayerStrategy.java:20-23 | a new strategy is JOBLESS and has registered exactly once |
| Bricklayer.SetBricklayerJob | jsettlers.logic/src/jsettlers/logic/movable/strategies/BricklayerStrategy.java:26-36 | accepted iff JOBLESS; then the job is stored and the state is INIT_JOB; a refused job changes nothing |
| Bricklayer.TryToBuild | jsettlers.logic/src/jsettlers/logic/movable/strategies/BricklayerStrategy.java:72-78 | taken material keeps BUILDING and plays ACTION1 for 1 time unit; otherwise the strategy becomes jobless and registers |
| Bricklayer.Action | jsettlers.logic/src/jsettlers/logic/movable/strategies/BricklayerStrategy.java:46-70 | JOBLESS and DEAD_OBJECT do nothing. INIT_JOB goes to GOING_TO_POS iff the site is unfinished and `goToPos` succeeds, otherwise becomes jobless; its effects are exactly a `goToPos` request iff the site is unfinished, then one registration iff it became jobless. GOING_TO_POS ends where BUILDING would and makes exactly the turn to its direction followed by BUILDING's effects. Registration happens iff the strategy enters JOBLESS |
| Bricklayer.CheckPathStepPreconditions | jsettlers.logic/src/jsettlers/logic/movable/strategies/BricklayerStrategy.java:80-88 | allows the step iff there is no site or it is unfinished, changing nothing; otherwise the strategy becomes jobless, registers and the step is refused |
| Bricklayer.StrategyKilled | jsettlers.logic/src/jsettlers/logic/movable/strategies/BricklayerStrategy.java:90-97 | always ends in DEAD_OBJECT keeping the job fields; its only possible effect is one deregistration from the pool, made iff it was JOBLESS |
| Bricklayer.ActionBalance | jsettlers.logic/src/jsettlers/logic/movable/strategies/BricklayerStrategy.java:46-78 | the registrations an `action` call makes equal the change in pool membership |
| Bricklayer.PathStepBalance | jsettlers.logic/src/jsettlers/logic/movable/strategies/BricklayerStrategy.java:80-88 | the registrations a path-step check makes equal the change in pool membership |
| Bricklayer.KillBalance | jsettlers.logic/src/jsettlers/logic/movable/strategies/BricklayerStrategy.java:90-97 | the deregistrations a kill makes equal the pool membership it ends |
| Bricklayer.StepBalance | jsettlers.logic/src/jsettlers/logic/movable/strategies/BricklayerStrategy.java:26-97 | for every call, registrations minus deregistrations minus accepted jobs equals the change in pool membership (1 when JOBLESS, else 0) |
| Bricklayer.RunBalance | jsettlers.logic/src/jsettlers/logic/movable/strategies/BricklayerStrategy.java:26-97 | the same balance holds over any sequence of calls |
| Bricklayer.NewRunBalance | jsettlers.logic/src/jsettlers/logic/movable/strategies/BricklayerStrategy.java:20-23 | from construction on, registrations minus deregistrations minus accepted jobs is 1 exactly when the strategy is JOBLESS and 0 otherwise |
| Bricklayer.JoblessLeftOnlyBySetJobOrKill | jsettlers.logic/src/jsettlers/logic/movable/strategies/BricklayerStrategy.java:26-97 | a JOBLESS strategy leaves JOBLESS iff it is given a job or killed |
| Bricklayer.DeadObjectStable | jsettlers.logic/src/jsettlers/logic/movable/strategies/BricklayerStrategy.java:80-97 | a DEAD_OBJECT leaves that state iff a path-step check finds its remembered site finished; it then becomes JOBLESS and registers |
| TestTile.NewTile | jsettlers.tests/tools/jsettlers/graphics/test/TestTile.java:24-28 | a new tile has the given position and height, no river, nothing on it and player -1 |
| TestTile.SetRiver | jsettlers.tests/tools/jsettlers/graphics/test/TestTile.java:91-93 | only the river flag changes |
| TestTile.GetLandscapeType | jsettlers.tests/tools/jsettlers/graphics/test/TestTile.java:42-56 | RIVER1 iff river; otherwise WATER1 iff height 0, SAND iff height is non-zero and at most 3, GRASS iff 4..10, MOUNTAIN iff 11..15, SNOW iff above 15 |
| TestTile.LandscapeIgnoresRest | jsettlers.tests/tools/jsettlers/graphics/test/TestTile.java:42-56 | the type depends only on the river flag and the height |
| TestTile.RiverOverridesHeight | jsettlers.tests/tools/jsettlers/graphics/test/TestTile.java:43-44 | a river tile is RIVER1 whatever its height; a non-river tile never is |
| TestTile.LandscapeMonotone | jsettlers.tests/tools/jsettlers/graphics/test/TestTile.java:45-55 | above height 0, a higher non-river tile is never in a lower band |
| TestTile.LandscapeBoundaries | jsettlers.tests/tools/jsettlers/graphics/test/TestTile.java:45-55 | the band edges: 3/4 is SAND/GRASS, 10/11 is GRASS/MOUNTAIN, 15/16 is MOUNTAIN/SNOW, -1/0 is SAND/WATER1 |
| TestTile.GetPos | jsettlers.tests/tools/jsettlers/graphics/test/TestTile.java:115-117 | the position has the tile's coordinates |
| TestTile.Equals | jsettlers.tests/tools/jsettlers/graphics/test/TestTile.java:78-80 | two tiles are equal iff their positions are equal |
| TestTile.EqualsIsEquivalence | jsettlers.tests/tools/jsettlers/graphics/test/TestTile.java:78-80 | `equals` is reflexive, symmetric and transitive |
| TestTile.EqualsIgnoresContent | jsettlers.tests/tools/jsettlers/graphics/test/TestTile.java:78-80 | tiles at one position are equal whatever their height, river, occupants and owner, so equal tiles can report different landscapes |

## Left out

- Floating point: costs, heuristics and the weights are reals. The IEEE rounding of `1.01f`, `1.02f` and of float sums and products is not modelled.
- `AStarMinHeap` is not part of this model. The queue is an unordered sequence of distinct ids, and `deleteMin` scans for a minimal rank. Which of several equal-rank nodes is extracted is therefore not the heap's choice, so the model does not pin down which of several equal-cost paths is returned.
- `increasedPriority` (HexAStar.java line 116) is a no-op in the model, because extraction reads the current ranks.
- The direction delta tables of `EDirection` are not part of this model. They are a parameter `deltas` of byte pairs, and `EDirection.NUMBER_OF_DIRECTIONS` is its length.
- The `markAsOpen`/`markAsClosed` hooks are visualisation only and are left out.
- `Path` is not part of this model. A found path is the sequence of coordinates written by `insertAt`, and `initPath` is not modelled.
- HexAStar.FindPath: does not state that the found path has minimal cost. It also does not state that the answer is independent of the values left in the buffers by earlier calls. Only soundness of the path and completeness of `null` are proved.
- The `findPath` exception is the `InvalidStartPosition` outcome value, not a thrown exception.
- `getCost` is an arbitrary real-valued oracle. Nothing depends on costs being positive.
- Bricklayer.SetBricklayerJob: a `null` site, target or direction cannot be passed, because the model's job has no null fields. In the code a `null` site throws `NullPointerException` at BricklayerStrategy.java line 53 when `action` runs in INIT_JOB; what a `null` target or direction does depends on `goToPos` and `lookInDirection`, which are not part of this model.
- `goToPos`, `lookInDirection`, `playAction` and the jobless pool calls are effects returned by the model, not executed.
- `BRICKLAYER_ACTION_DURATION` is the real 1.0.
- Serialisation of the strategy is left out.
- TestTile: the getters and setters other than `setRiver` only store and return fields and are left out. So are `getConstructionMark` and `getDebugColor`, which return constants.
- TestTile.Equals: models the overload `equals(TestTile)` on non-null tiles only; a `null` argument throws `NullPointerException` in the code, and `equals(Object)` is left as identity, unlike the position-based `hashCode`.
- `hashCode` depends on `ShortPoint2D.hashCode`, which is not part of this model.

=== FILE: bricklayer.dfy ===
/** `BricklayerStrategy`: the five-state life of a bricklayer. The
    construction site, the movement layer and the jobless pool are outside
    the model; what they answer (`isConstructionFinished`, `goToPos`,
    `tryToTakeMaterial`) is passed in, and what the strategy asks of them
    is returned as a list of effects. */
module Bricklayer {
  import opened Wrappers
  import opened HexGrid

  /** A construction site, known by identity only. */
  datatype Site = Site(id: int)

  /** `ShortPoint2D`. */
  datatype Pos = Pos(x: Short, y: Short)

  /** An `EDirection`, as its index in the direction table. */
  type Direction = nat

  /** What `setBricklayerJob` hands over. */
  datatype Job = Job(site: Site, target: Pos, direction: Direction)

  /** `EBricklayerState` together with the fields that are non-null in it:
      a jobless strategy has cleared them, a working one holds its job, and
      a dead one keeps whatever it held when it was killed. */
  datatype Strategy =
    | Jobless
    | InitJob(job: Job)
    | GoingToPos(job: Job)
    | Building(job: Job)
    | DeadObject(last: Option<Job>)

  /** What the strategy asks of its surroundings. */
  datatype Effect =
    | AddJobless
    | RemoveJobless
    | GoToPos(target: Pos)
    | LookInDirection(direction: Direction)
    | PlayAction1(duration: real)

  const BRICKLAYER_ACTION_DURATION: real := 1.0

  /** The strategy after a call, and what the call asked of its
      surroundings. */
  datatype Transition = Transition(st: Strategy, effects: seq<Effect>)

  /** The strategy after `setBricklayerJob`, and whether it took the job. */
  datatype Offer = Offer(st: Strategy, accepted: bool)

  /** The answer of `checkPathStepPreconditions`, the strategy after it,
      and what it asked of its surroundings. */
  datatype PathCheck = PathCheck(allowed: bool, st: Strategy, effects: seq<Effect>)

  /** The construction site field, `null` when jobless. */
  function SiteOf(b: Strategy): Option<Site>
  {
    match b
    case Jobless => None
    case DeadObject(last) => if last.Some? then Some(last.value.site) else None
    case _ => Some(b.job.site)
  }

  /** `makeJobless`: clear the job and register with the jobless pool. */
  function MakeJobless(): (r: Transition)
    ensures r.st.Jobless? && SiteOf(r.st).None? && multiset(r.effects)[AddJobless] == 1
    ensures r.effects == [AddJobless]
  {
    Transition(Jobless, [AddJobless])
  }

  /** The constructor: a new bricklayer is jobless and registered once. */
  function New(): (r: Transition)
    ensures r.st == Jobless && r.effects == [AddJobless]
  {
    MakeJobless()
  }

  /** `setBricklayerJob`: accepted exactly when jobless; the job is stored
      and the strategy moves to INIT_JOB. A refused job changes nothing. */
  function SetBricklayerJob(b: Strategy, job: Job): (r: Offer)
    ensures r.accepted <==> b.Jobless?
    ensures r.accepted ==> r.st == InitJob(job) && SiteOf(r.st) == Some(job.site)
    ensures !r.accepted ==> r.st == b
  {
    if b.Jobless? then Offer(InitJob(job), true) else Offer(b, false)
  }

  /** `tryToBuild`: play the build animation when material was taken,
      otherwise give up the job. */
  function TryToBuild(job: Job, tookMaterial: bool): (r: Transition)
    ensures tookMaterial ==> r.st == Building(job) && r.effects == [PlayAction1(BRICKLAYER_ACTION_DURATION)]
    ensures !tookMaterial ==> r.st == Jobless && r.effects == [AddJobless]
  {
    if tookMaterial then Transition(Building(job), [PlayAction1(BRICKLAYER_ACTION_DURATION)])
    else MakeJobless()
  }

  /** `action`, given the site's and the movement layer's answers;
      `walking` is whether `goToPos` could start the walk. In INIT_JOB
      `goToPos` is only asked when the site is unfinished. A
      strategy going to its position turns to its direction, becomes
      BUILDING and tries to build in the same call. */
  function Action(b: Strategy, finished: bool, walking: bool, tookMaterial: bool): (r: Transition)
    ensures b.Jobless? || b.DeadObject? ==> r == Transition(b, [])
    ensures b.InitJob? ==>
      && (r.st == GoingToPos(b.job) <==> !finished && walking)
      && (r.st != GoingToPos(b.job) ==> r.st == Jobless)
      && (GoToPos(b.job.target) in r.effects <==> !finished)
      && r.effects == (if finished then [] else [GoToPos(b.job.target)]) + (if r.st.Jobless? then [AddJobless] else [])
    ensures b.GoingToPos? ==>
      && |r.effects| > 0 && r.effects[0] == LookInDirection(b.job.direction)
      && (tookMaterial ==> r.st == Building(b.job) && PlayAction1(BRICKLAYER_ACTION_DURATION) in r.effects)
      && (!tookMaterial ==> r.st == Jobless)
      && r.st == TryToBuild(b.job, tookMaterial).st
      && r.effects == [LookInDirection(b.job.direction)] + TryToBuild(b.job, tookMaterial).effects
    ensures b.Building? ==> r == TryToBuild(b.job, tookMaterial)
    ensures AddJobless in r.effects <==> r.st.Jobless? && !b.Jobless?
    ensures RemoveJobless !in r.effects
  {
    match b
    case Jobless => Transition(b, [])
    case InitJob(job) =>
      if finished then MakeJobless()
      else if walking then Transition(GoingToPos(job), [GoToPos(job.target)])
      else
        var j := MakeJobless();
        Transition(j.st, [GoToPos(job.target)] + j.effects)
    case GoingToPos(job) =>
      var built := TryToBuild(job, tookMaterial);
      Transition(built.st, [LookInDirection(job.direction)] + built.effects)
    case Building(job) => TryToBuild(job, tookMaterial)
    case DeadObject(_) => Transition(b, [])
  }

  /** `checkPathStepPreconditions`: walking on is allowed unless the site
      is finished; a finished site makes the strategy jobless, whatever
      state it was in. */
  function CheckPathStepPreconditions(b: Strategy, finished: bool): (r: PathCheck)
    ensures r.allowed <==> SiteOf(b).None? || !finished
    ensures r.allowed ==> r.st == b && r.effects == []
    ensures !r.allowed ==> r.st == Jobless && r.effects == [AddJobless]
  {
    if SiteOf(b).None? || !finished then PathCheck(true, b, [])
    else
      var j := MakeJobless();
      PathCheck(false, j.st, j.effects)
  }

  /** The job, or `null`, held in any state. */
  function JobOf(b: Strategy): Option<Job>
  {
    match b
    case Jobless => None
    case DeadObject(last) => last
    case _ => Some(b.job)
  }

  /** `strategyKilledEvent`: the strategy ends in DEAD_OBJECT, keeping its
      fields; only a jobless one leaves the jobless pool. */
  function StrategyKilled(b: Strategy): (r: Transition)
    ensures r.st.DeadObject? && r.st.last == JobOf(b)
    ensures RemoveJobless in r.effects <==> b.Jobless?
    ensures AddJobless !in r.effects && |r.effects| <= 1
    ensures forall x :: x in r.effects ==> x == RemoveJobless
  {
    Transition(DeadObject(JobOf(b)), if b.Jobless? then [RemoveJobless] else [])
  }

  /** One call into the strategy, with the answers its surroundings give. */
  datatype Event =
    | SetJob(job: Job)
    | Act(finished: bool, walking: bool, tookMaterial: bool)
    | PathStep(finished: bool)
    | Kill

  /** The strategy after one event, the effects it caused, and whether it
      took on a job. */
  datatype StepResult = StepResult(st: Strategy, effects: seq<Effect>, accepted: bool)

  function Step(b: Strategy, e: Event): StepResult
  {
    match e
    case SetJob(job) =>
      var r := SetBricklayerJob(b, job);
      StepResult(r.st, [], r.accepted)
    case Act(finished, walking, tookMaterial) =>
      var r := Action(b, finished, walking, tookMaterial);
      StepResult(r.st, r.effects, false)
    case PathStep(finished) =>
      var r := CheckPathStepPreconditions(b, finished);
      StepResult(r.st, r.effects, false)
    case Kill =>
      var r := StrategyKilled(b);
      StepResult(r.st, r.effects, false)
  }

  /** A sequence of events, with all effects in order. */
  function Run(b: Strategy, es: seq<Event>): (r: StepResult)
    decreases |es|
  {
    if |es| == 0 then StepResult(b, [], false)
    else
      var first := Step(b, es[0]);
      var rest := Run(first.st, es[1..]);
      StepResult(rest.st, first.effects + rest.effects, false)
  }

  /** The number of jobs taken on during a sequence of events. */
  function JobsTaken(b: Strategy, es: seq<Event>): nat
    decreases |es|
  {
    if |es| == 0 then 0
    else
      var first := Step(b, es[0]);
      (if first.accepted then 1 else 0) + JobsTaken(first.st, es[1..])
  }

  /** Registrations minus deregistrations with the jobless pool. */
  function Net(effects: seq<Effect>): int
  {
    multiset(effects)[AddJobless] as int - multiset(effects)[RemoveJobless] as int
  }

  function InPool(b: Strategy): int
  {
    if b.Jobless? then 1 else 0
  }

  /** Each event changes the pool registration the way the state changes:
      one registration on entering JOBLESS, one deregistration or one
      accepted job on leaving it, nothing otherwise. */
  lemma StepBalance(b: Strategy, e: Event)
    ensures var r := Step(b, e);
      Net(r.effects) - (if r.accepted then 1 else 0)
        == InPool(r.st) - InPool(b)
  {
    match e
    case SetJob(job) =>
      assert Step(b, e).effects == [];
    case Act(finished, walking, tookMaterial) =>
      ActionBalance(b, finished, walking, tookMaterial);
    case PathStep(finished) => PathStepBalance(b, finished);
    case Kill => KillBalance(b);
  }

  lemma PathStepBalance(b: Strategy, finished: bool)
    ensures var r := CheckPathStepPreconditions(b, finished);
      Net(r.effects) == InPool(r.st) - InPool(b)
  {
    var r := CheckPathStepPreconditions(b, finished);
    if r.allowed {
      assert r.effects == [];
    } else {
      assert r.effects == [AddJobless];
    }
  }

  lemma KillBalance(b: Strategy)
    ensures var r := StrategyKilled(b);
      Net(r.effects) == InPool(r.st) - InPool(b)
  {
    var r := StrategyKilled(b);
    if b.Jobless? {
      assert r.effects == [RemoveJobless];
    } else {
      assert r.effects == [];
    }
  }

  lemma ActionBalance(b: Strategy, finished: bool, walking: bool, tookMaterial: bool)
    ensures var r := Action(b, finished, walking, tookMaterial);
      Net(r.effects) == InPool(r.st) - InPool(b)
  {
    match b
    case InitJob(job) => InitJobBalance(job, finished, walking);
    case GoingToPos(job) => GoingToPosBalance(job, tookMaterial);
    case Building(job) =>
    case Jobless =>
    case DeadObject(_) =>
  }

  lemma InitJobBalance(job: Job, finished: bool, walking: bool)
    ensures var r := Action(InitJob(job), finished, walking, false);
      Net(r.effects) == InPool(r.st)
  {
    var r := Action(InitJob(job), finished, walking, false);
    if finished {
      assert r.effects == [AddJobless];
    } else if walking {
      assert r.effects == [GoToPos(job.target)];
    } else {
      assert r.effects == [GoToPos(job.target), AddJobless];
    }
  }

  lemma GoingToPosBalance(job: Job, tookMaterial: bool)
    ensures var r := Action(GoingToPos(job), false, false, tookMaterial);
      Net(r.effects) == InPool(r.st)
  {
    var r := Action(GoingToPos(job), false, false, tookMaterial);
    if tookMaterial {
      assert r.effects == [LookInDirection(job.direction), PlayAction1(BRICKLAYER_ACTION_DURATION)];
    } else {
      assert r.effects == [LookInDirection(job.direction), AddJobless];
    }
  }

  /** Over any run, registrations minus deregistrations minus jobs taken on
      is the change in pool membership; from a new bricklayer (which
      registers once) the strategy is counted in the pool exactly when it
      is jobless. */
  lemma {:induction false} RunBalance(b: Strategy, es: seq<Event>)
    ensures var r := Run(b, es);
      Net(r.effects) - JobsTaken(b, es)
        == InPool(r.st) - InPool(b)
    decreases |es|
  {
    if |es| > 0 {
      StepBalance(b, es[0]);
      RunBalance(Step(b, es[0]).st, es[1..]);
    }
  }

  lemma NewRunBalance(es: seq<Event>)
    ensures var r := Run(New().st, es);
      1 + Net(r.effects) - JobsTaken(New().st, es)
        == InPool(r.st)
  {
    RunBalance(Jobless, es);
  }

  /** A jobless strategy stays jobless until it is given a job or killed. */
  lemma JoblessLeftOnlyBySetJobOrKill(e: Event)
    ensures !Step(Jobless, e).st.Jobless? <==> e.SetJob? || e.Kill?
  {
  }

  /** A dead strategy stays dead, except that a path-step check against a
      finished site it still remembers makes it jobless and registers it
      with the pool again. */
  lemma DeadObjectStable(last: Option<Job>, e: Event)
    ensures var r := Step(DeadObject(last), e);
      !r.st.DeadObject? <==> e.PathStep? && e.finished && last.Some?
    ensures var r := Step(DeadObject(last), e);
      !r.st.DeadObject? ==> r.st.Jobless? && r.effects == [AddJobless]
  {
  }
}

=== FILE: heuristic.dfy ===
/** The weighted distance estimate of the hex A* engine and the pair of axis
    weights it alternates between calls. Floats are modelled as reals. */
module Heuristic {

  /** The axis weights as the engine is constructed (`1.01f`, `1.02f`). */
  datatype Factors = Factors(x: real, y: real)

  const INITIAL_FACTORS := Factors(1.01, 1.02)

  function Abs(v: real): (r: real)
    ensures r >= 0.0 && (r == v || r == -v)
  {
    if v < 0.0 then -v else v
  }

  function Max(a: real, b: real): real
  {
    if a > b then a else b
  }

  /** `getHeuristicCost`: with the weighted axis distances dx and dy, the
      larger one when they point the same way, their sum otherwise. */
  function HeuristicCost(sx: int, sy: int, tx: int, ty: int, f: Factors): (h: real)
    ensures h >= Abs((tx - sx) as real * f.x) && h >= Abs((ty - sy) as real * f.y)
    ensures h <= Abs((tx - sx) as real * f.x) + Abs((ty - sy) as real * f.y)
  {
    WeightedDistance((tx - sx) as real * f.x, (ty - sy) as real * f.y)
  }

  function WeightedDistance(dx: real, dy: real): real
  {
    if dx * dy > 0.0 then Max(Abs(dx), Abs(dy)) else Abs(dx) + Abs(dy)
  }

  lemma MulPos(a: real, b: real)
    ensures a > 0.0 && b > 0.0 ==> a * b > 0.0
    ensures a < 0.0 && b > 0.0 ==> a * b < 0.0
  {
  }

  /** With positive weights the estimate is zero exactly at the target and
      positive everywhere else. */
  lemma HeuristicZeroIffAtTarget(sx: int, sy: int, tx: int, ty: int, f: Factors)
    requires f.x > 0.0 && f.y > 0.0
    ensures HeuristicCost(sx, sy, tx, ty, f) >= 0.0
    ensures HeuristicCost(sx, sy, tx, ty, f) == 0.0 <==> sx == tx && sy == ty
  {
    MulPos((tx - sx) as real, f.x);
    MulPos((sx - tx) as real, f.x);
    MulPos((ty - sy) as real, f.y);
    MulPos((sy - ty) as real, f.y);
  }

  /** With positive weights the choice between the two formulas depends only
      on the signs of the raw coordinate differences: the same direction on
      both axes takes the larger weighted distance, anything else the sum. */
  lemma HeuristicByDirection(sx: int, sy: int, tx: int, ty: int, f: Factors)
    requires f.x > 0.0 && f.y > 0.0
    ensures var ax := Abs((tx - sx) as real * f.x);
            var ay := Abs((ty - sy) as real * f.y);
            ((tx > sx && ty > sy) || (tx < sx && ty < sy) ==> HeuristicCost(sx, sy, tx, ty, f) == Max(ax, ay))
            && (!((tx > sx && ty > sy) || (tx < sx && ty < sy)) ==> HeuristicCost(sx, sy, tx, ty, f) == ax + ay)
  {
    var dx := (tx - sx) as real * f.x;
    var dy := (ty - sy) as real * f.y;
    MulPos((tx - sx) as real, f.x);
    MulPos((sx - tx) as real, f.x);
    MulPos((ty - sy) as real, f.y);
    MulPos((sy - ty) as real, f.y);
    MulPos(dx, dy);
    MulPos(-dx, -dy);
    MulPos(dy, -dx);
    MulPos(dx, -dy);
  }

  /** Swapping the weights is the same as mirroring the grid on its
      diagonal: this is what makes consecutive searches break ties the
      other way. */
  lemma SwappedFactorsMirror(sx: int, sy: int, tx: int, ty: int, f: Factors)
    ensures HeuristicCost(sx, sy, tx, ty, Swapped(f)) == HeuristicCost(sy, sx, ty, tx, f)
  {
    var a := (tx - sx) as real * f.y;
    var b := (ty - sy) as real * f.x;
    WeightedDistanceSymmetric(a, b);
  }

  lemma WeightedDistanceSymmetric(a: real, b: real)
    ensures WeightedDistance(a, b) == WeightedDistance(b, a)
  {
    assert a * b == b * a;
  }

  /** The swap performed at the start of every search that passes validation. */
  function Swapped(f: Factors): Factors
  {
    Factors(f.y, f.x)
  }

  /** The weights after k validated searches. */
  function AfterSwaps(f: Factors, k: nat): Factors
  {
    if k == 0 then f else Swapped(AfterSwaps(f, k - 1))
  }

  /** After k validated searches the weights are back to their initial
      values exactly when k is even. */
  lemma {:induction false} AfterSwapsParity(k: nat)
    ensures AfterSwaps(INITIAL_FACTORS, k) == INITIAL_FACTORS <==> k % 2 == 0
    ensures AfterSwaps(INITIAL_FACTORS, k) == Swapped(INITIAL_FACTORS) <==> k % 2 == 1
  {
    if k > 0 {
      AfterSwapsParity(k - 1);
    }
  }
}

=== FILE: hex_astar.dfy ===
/** `HexAStar`: A* path search on a hex grid over flat per-node buffers that
    are allocated once and reused by every call. Per node, `openList` and
    `closedList` hold one bit each, `costsAndHeuristics` two reals (cost so
    far, heuristic estimate) and `depthParentHeap` three ints (depth, parent,
    heap slot). */
module HexAStar {
  import opened Wrappers
  import opened HexGrid
  import opened PathMap
  import opened Heuristic
  import opened MinQueue

  const INT_MAX := 0x7fff_ffff

  /** Java's 32-bit `int` arithmetic: keep the low 32 bits, two's complement. */
  function Int32(v: int): int
  {
    var m := v % 0x1_0000_0000;
    if m <= INT_MAX then m else m - 0x1_0000_0000
  }

  /** The reusable search buffers, plus the contents of the open queue. */
  datatype Nodes = Nodes(
    openList: seq<bool>,
    closedList: seq<bool>,
    costsAndHeuristics: seq<real>,
    depthParentHeap: seq<int>,
    heap: seq<nat>)

  /** One engine instance: the grid extent, the current heuristic weights
      and the buffers left behind by the previous call. */
  datatype Engine = Engine(grid: Grid, factors: Factors, nodes: Nodes)

  predicate Sized(n: int, st: Nodes)
  {
    n >= 0 && |st.openList| == n && |st.closedList| == n
    && |st.costsAndHeuristics| == 2 * n && |st.depthParentHeap| == 3 * n
  }

  predicate Wellformed(e: Engine)
  {
    Sized(Size(e.grid), e.nodes)
  }

  lemma ShortProductBound(a: Short, b: Short)
    ensures -0x4000_0000 <= a as int * b <= 0x4000_0000
  {
    var aa: int := if a < 0 then -(a as int) else a;
    var bb: int := if b < 0 then -(b as int) else b;
    MulMono(aa, 0x8000, bb);
    MulMono(bb, 0x8000, 0x8000);
    assert aa * bb == (if (a < 0) == (b < 0) then a as int * b else -(a as int * b));
  }

  /** For a product of two shorts, the three allocation sizes are all
      non-negative exactly when the cell count and three times it fit. */
  lemma AllocationSizes(cells: int)
    requires -0x4000_0000 <= cells <= 0x4000_0000
    ensures Int32(cells) == cells
    ensures Int32(cells) >= 0 && Int32(cells * 2) >= 0 && Int32(cells * 3) >= 0
      <==> 0 <= cells && 3 * cells <= INT_MAX
  {
  }

  /** The constructor: the allocations `new BitSet(width * height)`,
      `new float[width * height * 2]` and `new int[width * height * 3]`
      succeed only when their 32-bit sizes are not negative. */
  function Create(width: Short, height: Short): (r: Option<Engine>)
    ensures r.Some? <==> 0 <= width as int * height && 3 * (width as int * height) <= INT_MAX
    ensures r.Some? ==> var e := r.value;
      Wellformed(e) && e.grid == Grid(width, height) && e.factors == INITIAL_FACTORS && e.nodes.heap == []
  {
    ShortProductBound(width, height);
    var cells := width as int * height;
    AllocationSizes(cells);
    var n := Int32(cells);
    if n < 0 || Int32(n * 2) < 0 || Int32(n * 3) < 0 then None
    else Some(Engine(Grid(width, height), INITIAL_FACTORS,
                     Nodes(seq(n, _ => false), seq(n, _ => false), seq(2 * n, _ => 0.0), seq(3 * n, _ => 0), [])))
  }

  /** What a call returns: the start-position exception, `null`, or a path
      (the coordinates after the start, ending at the target). */
  datatype Outcome =
    | InvalidStartPosition(x: Short, y: Short)
    | NoPath
    | Found(path: seq<(int, int)>)

  datatype Validation = Reject(outcome: Outcome) | Proceed(blockedAtStart: bool)

  /** The checks made before any search state is touched. */
  function Validate(g: Grid, pm: PathMap, req: Requester, sx: Short, sy: Short, tx: Short, ty: Short): (v: Validation)
    ensures v == Reject(InvalidStartPosition(sx, sy)) <==> !InBounds(g, sx, sy)
    ensures v == Reject(NoPath) <==>
      InBounds(g, sx, sy)
      && (!InBounds(g, tx, ty) || pm.isBlocked(req, tx, ty)
          || pm.blockedPartition(sx, sy) != pm.blockedPartition(tx, ty)
          || (sx == tx && sy == ty))
    ensures v.Proceed? <==>
      && InBounds(g, sx, sy) && InBounds(g, tx, ty) && !pm.isBlocked(req, tx, ty)
      && pm.blockedPartition(sx, sy) == pm.blockedPartition(tx, ty) && !(sx == tx && sy == ty)
    ensures v.Proceed? ==> v.blockedAtStart == pm.isBlocked(req, sx, sy)
  {
    if !InBounds(g, sx, sy) then Reject(InvalidStartPosition(sx, sy))
    else if !InBounds(g, tx, ty) || pm.isBlocked(req, tx, ty) || pm.blockedPartition(sx, sy) != pm.blockedPartition(tx, ty) then Reject(NoPath)
    else if sx == tx && sy == ty then Reject(NoPath)
    else if pm.isBlocked(req, sx, sy) then Proceed(true)
    else Proceed(false)
  }

  // Field accessors over the slot layout.

  function Cost(st: Nodes, i: nat): real
    requires CostsIdx(i) < |st.costsAndHeuristics|
  {
    st.costsAndHeuristics[CostsIdx(i)]
  }

  function Heur(st: Nodes, i: nat): real
    requires HeuristicIdx(i) < |st.costsAndHeuristics|
  {
    st.costsAndHeuristics[HeuristicIdx(i)]
  }

  function Depth(st: Nodes, i: nat): int
    requires DepthIdx(i) < |st.depthParentHeap|
  {
    st.depthParentHeap[DepthIdx(i)]
  }

  function Parent(st: Nodes, i: nat): int
    requires ParentIdx(i) < |st.depthParentHeap|
  {
    st.depthParentHeap[ParentIdx(i)]
  }

  /** The buffers of a search on the grid of m, with n nodes. */
  predicate SearchSized(m: Moves, n: nat, st: Nodes)
  {
    Positive(m.grid) && n == Size(m.grid) && Sized(n, st)
  }

  /** Every queued node is an open, not yet closed node of the grid. */
  ghost predicate QueuedAreOpen(n: nat, st: Nodes)
    requires Sized(n, st)
  {
    forall k :: 0 <= k < |st.heap| ==> st.heap[k] < n && st.openList[st.heap[k]] && !st.closedList[st.heap[k]]
  }

  /** The queue holds exactly the nodes whose open bit is set and whose
      closed bit is not, each once, each knowing its slot. */
  ghost predicate QueueExact(n: nat, st: Nodes)
    requires Sized(n, st)
  {
    && QueuedAreOpen(n, st)
    && Distinct(st.heap)
    && SlotsConsistent(st.heap, st.depthParentHeap)
    && (forall i :: 0 <= i < n && st.openList[i] && !st.closedList[i] ==> i in st.heap)
  }

  /** Open bits are never cleared, so every closed node is still marked open. */
  ghost predicate ClosedAreOpen(n: nat, st: Nodes)
    requires Sized(n, st)
  {
    forall i :: 0 <= i < n && st.closedList[i] ==> st.openList[i]
  }

  /** Node i hangs off a closed parent one level up, by one allowed step. */
  ghost predicate ParentLink(m: Moves, n: nat, st: Nodes, i: nat)
    requires SearchSized(m, n, st) && i < n
  {
    var p := Parent(st, i);
    && 0 <= p < n && st.closedList[p]
    && Depth(st, i) == Depth(st, p) + 1 && Depth(st, i) >= 1
    && IsStep(m, Coords(m.grid, p), Coords(m.grid, i))
  }

  /** The parent fields of the open nodes form a tree rooted at the start,
      which has depth 0 and parent -1. */
  ghost predicate SearchTree(m: Moves, n: nat, s: nat, st: Nodes)
    requires SearchSized(m, n, st)
  {
    && s < n && st.openList[s] && Depth(st, s) == 0 && Parent(st, s) == -1
    && forall i {:trigger ParentLink(m, n, st, i)} :: 0 <= i < n && st.openList[i] && i != s ==> ParentLink(m, n, st, i)
  }

  /** Until the start is extracted it is the only node the search knows. */
  ghost predicate StartFirst(n: nat, s: nat, st: Nodes)
    requires Sized(n, st) && s < n
  {
    st.closedList[s] || (st.heap == [s] && forall i :: 0 <= i < n && st.openList[i] ==> i == s)
  }

  /** Every allowed neighbour of c in the first `upto` directions is open. */
  ghost predicate Expanded(m: Moves, open: seq<bool>, c: nat, upto: int)
    requires Positive(m.grid) && |open| == Size(m.grid) && c < |open| && upto <= |m.deltas|
  {
    var p := Coords(m.grid, c);
    forall k {:trigger Neighbor(p.0, p.1, m.deltas[k])} :: 0 <= k < upto ==>
      var nb := Neighbor(p.0, p.1, m.deltas[k]);
      IsValidPosition(m, nb.0, nb.1) ==> open[FlatIdx(m.grid, nb.0, nb.1)]
  }

  /** Every closed node other than the target (never expanded) and `except`
      (being expanded) has all its allowed neighbours open. */
  ghost predicate ClosedExpanded(m: Moves, n: nat, t: nat, st: Nodes, except: int)
    requires SearchSized(m, n, st)
  {
    forall c {:trigger Expanded(m, st.openList, c, |m.deltas|)} ::
      0 <= c < n && st.closedList[c] && c != t && c != except ==> Expanded(m, st.openList, c, |m.deltas|)
  }

  /** The search invariant. */
  ghost predicate Inv(m: Moves, n: nat, s: nat, t: nat, st: Nodes, except: int)
  {
    && SearchSized(m, n, st) && s < n && t < n
    && QueueExact(n, st) && ClosedAreOpen(n, st) && SearchTree(m, n, s, st)
    && StartFirst(n, s, st) && ClosedExpanded(m, n, t, st, except)
  }

  /** The cost of reaching neighbour (nx, ny) through node cur. */
  function NewCosts(m: Moves, st: Nodes, cur: nat, nx: int, ny: int): real
    requires Positive(m.grid) && Sized(Size(m.grid), st) && cur < Size(m.grid)
  {
    Cost(st, cur) + m.pathMap.cost(GetX(m.grid, cur), GetY(m.grid, cur), nx, ny)
  }

  /** The body of the neighbour loop for an allowed neighbour (nx, ny) of
      the node cur just closed: a closed neighbour is skipped; an open one
      takes the new cost, depth and parent only on strict improvement,
      keeping its heuristic; an unseen one is filled in, marked open and
      queued. */
  function Relax(m: Moves, n: nat, st: Nodes, cur: nat, nx: int, ny: int, target: (int, int), f: Factors): (st': Nodes)
    requires SearchSized(m, n, st) && cur < n && st.closedList[cur] && InBounds(m.grid, nx, ny)
    requires QueuedAreOpen(n, st) && Distinct(st.heap) && SlotsConsistent(st.heap, st.depthParentHeap)
    ensures SearchSized(m, n, st') && st'.closedList == st.closedList
    ensures Distinct(st'.heap) && SlotsConsistent(st'.heap, st'.depthParentHeap)
    ensures var nb := FlatIdx(m.grid, nx, ny);
      && (st.closedList[nb] ==> st' == st)
      && (!st.closedList[nb] && st.openList[nb] ==>
            && st'.openList == st.openList && st'.heap == st.heap
            && (Cost(st, nb) <= NewCosts(m, st, cur, nx, ny) ==> st' == st)
            && (Cost(st, nb) > NewCosts(m, st, cur, nx, ny) ==>
                  Cost(st', nb) == NewCosts(m, st, cur, nx, ny) < Cost(st, nb)
                  && Heur(st', nb) == Heur(st, nb)
                  && Depth(st', nb) == Depth(st, cur) + 1 && Parent(st', nb) == cur))
      && (!st.closedList[nb] && !st.openList[nb] ==>
            && st'.openList == st.openList[nb := true]
            && multiset(st'.heap) == multiset(st.heap) + multiset{nb}
            && Cost(st', nb) == NewCosts(m, st, cur, nx, ny)
            && Heur(st', nb) == HeuristicCost(nx, ny, target.0, target.1, f)
            && Depth(st', nb) == Depth(st, cur) + 1 && Parent(st', nb) == cur)
      && (forall i :: 0 <= i < n && i != nb ==>
            Cost(st', i) == Cost(st, i) && Heur(st', i) == Heur(st, i)
            && Depth(st', i) == Depth(st, i) && Parent(st', i) == Parent(st, i))
  {
    var nb := FlatIdx(m.grid, nx, ny);
    if st.closedList[nb] then st
    else if st.openList[nb] then
      if Cost(st, nb) > NewCosts(m, st, cur, nx, ny) then
        Improve(n, st, nb, NewCosts(m, st, cur, nx, ny), cur)
      else st
    else
      OpenNew(n, st, nb, NewCosts(m, st, cur, nx, ny), HeuristicCost(nx, ny, target.0, target.1, f), cur)
  }

  /** The strict-improvement branch: new cost, depth and parent for an open
      node, nothing else. */
  function Improve(n: nat, st: Nodes, nb: nat, newCosts: real, cur: nat): (st': Nodes)
    requires Sized(n, st) && nb < n && cur < n && nb != cur
    ensures Sized(n, st') && st'.closedList == st.closedList
    ensures st'.openList == st.openList && st'.heap == st.heap
    ensures forall k :: 0 <= k < |st.depthParentHeap| && k % 3 == 2 ==> st'.depthParentHeap[k] == st.depthParentHeap[k]
    ensures Cost(st', nb) == newCosts && Heur(st', nb) == Heur(st, nb)
    ensures Depth(st', nb) == Depth(st, cur) + 1 && Parent(st', nb) == cur
    ensures forall i :: 0 <= i < n && i != nb ==>
      Cost(st', i) == Cost(st, i) && Heur(st', i) == Heur(st, i)
      && Depth(st', i) == Depth(st, i) && Parent(st', i) == Parent(st, i)
  {
    SlotsDisjoint(n, nb, cur);
    st.(costsAndHeuristics := st.costsAndHeuristics[CostsIdx(nb) := newCosts],
        depthParentHeap := st.depthParentHeap[DepthIdx(nb) := Depth(st, cur) + 1][ParentIdx(nb) := cur])
  }

  /** The unseen-node branch: fill in all four fields, set the open bit and
      queue the node. */
  function OpenNew(n: nat, st: Nodes, nb: nat, newCosts: real, h: real, cur: nat): (st': Nodes)
    requires Sized(n, st) && nb < n && cur < n && nb != cur && !st.openList[nb]
    requires QueuedAreOpen(n, st) && Distinct(st.heap) && SlotsConsistent(st.heap, st.depthParentHeap)
    ensures Sized(n, st') && st'.closedList == st.closedList
    ensures st'.openList == st.openList[nb := true]
    ensures multiset(st'.heap) == multiset(st.heap) + multiset{nb}
    ensures Distinct(st'.heap) && SlotsConsistent(st'.heap, st'.depthParentHeap)
    ensures Cost(st', nb) == newCosts && Heur(st', nb) == h
    ensures Depth(st', nb) == Depth(st, cur) + 1 && Parent(st', nb) == cur
    ensures forall i :: 0 <= i < n && i != nb ==>
      Cost(st', i) == Cost(st, i) && Heur(st', i) == Heur(st, i)
      && Depth(st', i) == Depth(st, i) && Parent(st', i) == Parent(st, i)
  {
    SlotsDisjoint(n, nb, cur);
    var cah := st.costsAndHeuristics[CostsIdx(nb) := newCosts][HeuristicIdx(nb) := h];
    var dph := st.depthParentHeap[DepthIdx(nb) := Depth(st, cur) + 1][ParentIdx(nb) := cur];
    assert SlotsConsistent(st.heap, dph) by {
      forall k | 0 <= k < |st.heap|
        ensures HeapArrayIdx(st.heap[k]) < |dph| && GetHeapIdx(dph, st.heap[k]) == k
      {
        SlotsDisjoint(n, nb, st.heap[k]);
      }
    }
    assert nb !in st.heap;
    var (heap, dph') := Insert(st.heap, dph, nb);
    Nodes(st.openList[nb := true], st.closedList, cah, dph', heap)
  }

  lemma ExpandedGrows(m: Moves, open: seq<bool>, open': seq<bool>, c: nat, upto: int)
    requires Positive(m.grid) && |open| == |open'| == Size(m.grid) && c < |open| && upto <= |m.deltas|
    requires forall i :: 0 <= i < |open| && open[i] ==> open'[i]
    requires Expanded(m, open, c, upto)
    ensures Expanded(m, open', c, upto)
  {
  }

  /** The node reached from cur in direction k is an allowed step away
      from cur, and its flat index gives back its coordinates. */
  lemma NeighborNode(m: Moves, cur: nat, k: int)
    requires Positive(m.grid) && cur < Size(m.grid) && 0 <= k < |m.deltas|
    requires var p := Coords(m.grid, cur); var nb := Neighbor(p.0, p.1, m.deltas[k]); IsValidPosition(m, nb.0, nb.1)
    ensures var p := Coords(m.grid, cur); var nb := Neighbor(p.0, p.1, m.deltas[k]);
      Coords(m.grid, FlatIdx(m.grid, nb.0, nb.1)) == nb && IsStep(m, p, nb)
  {
    var p := Coords(m.grid, cur);
    var nb := Neighbor(p.0, p.1, m.deltas[k]);
    NeighborIsStep(m, p.0, p.1, k);
    CoordsOfFlatIdx(m.grid, nb.0, nb.1);
  }

  /** What a relaxation that changed something did, as far as the search
      invariant is concerned: node nb (not closed) became or stayed open,
      with parent cur and depth one more than cur; no other node's bits,
      depth or parent changed. */
  ghost predicate ChangedOnly(n: nat, st: Nodes, st': Nodes, nb: nat, cur: nat)
    requires Sized(n, st) && Sized(n, st') && nb < n && cur < n
  {
    && !st.closedList[nb] && st'.closedList == st.closedList
    && st'.openList == st.openList[nb := true]
    && (forall x :: x in st'.heap <==> x in st.heap || (x == nb && !st.openList[nb]))
    && Distinct(st'.heap) && SlotsConsistent(st'.heap, st'.depthParentHeap)
    && Depth(st', nb) == Depth(st, cur) + 1 && Parent(st', nb) == cur
    && (forall i :: 0 <= i < n && i != nb ==> Depth(st', i) == Depth(st, i) && Parent(st', i) == Parent(st, i))
  }

  lemma RelaxChangedOnly(m: Moves, n: nat, st: Nodes, cur: nat, nx: int, ny: int, target: (int, int), f: Factors)
    requires SearchSized(m, n, st) && cur < n && st.closedList[cur] && InBounds(m.grid, nx, ny)
    requires QueuedAreOpen(n, st) && Distinct(st.heap) && SlotsConsistent(st.heap, st.depthParentHeap)
    requires ClosedAreOpen(n, st)
    ensures var st' := Relax(m, n, st, cur, nx, ny, target, f);
      st' == st || ChangedOnly(n, st, st', FlatIdx(m.grid, nx, ny), cur)
  {
    var st' := Relax(m, n, st, cur, nx, ny, target, f);
    var nb := FlatIdx(m.grid, nx, ny);
    if st' != st {
      if st.openList[nb] {
        assert st.openList[nb := true] == st.openList;
      } else {
        forall x
          ensures x in st'.heap <==> x in st.heap || (x == nb && !st.openList[nb])
        {
          assert x in st'.heap <==> x in multiset(st'.heap);
          assert x in st.heap <==> x in multiset(st.heap);
        }
      }
    }
  }

  lemma ChangedKeepsQueue(n: nat, st: Nodes, st': Nodes, nb: nat, cur: nat)
    requires Sized(n, st) && Sized(n, st') && nb < n && cur < n
    requires QueueExact(n, st) && ChangedOnly(n, st, st', nb, cur)
    ensures QueueExact(n, st')
  {
    forall j | 0 <= j < |st'.heap|
      ensures st'.heap[j] < n && st'.openList[st'.heap[j]] && !st'.closedList[st'.heap[j]]
    {
      assert st'.heap[j] in st'.heap;
    }
  }

  lemma ChangedKeepsTree(m: Moves, n: nat, s: nat, st: Nodes, st': Nodes, nb: nat, cur: nat)
    requires SearchSized(m, n, st) && SearchSized(m, n, st') && nb < n && cur < n
    requires SearchTree(m, n, s, st) && ClosedAreOpen(n, st) && st.closedList[s] && st.closedList[cur]
    requires ChangedOnly(n, st, st', nb, cur)
    requires IsStep(m, Coords(m.grid, cur), Coords(m.grid, nb))
    ensures SearchTree(m, n, s, st')
  {
    assert s != nb;
    forall i | 0 <= i < n && st'.openList[i] && i != s
      ensures ParentLink(m, n, st', i)
    {
      if i != nb {
        assert ParentLink(m, n, st, i);
        assert Parent(st, i) != nb;
      } else {
        assert cur != nb;
        assert cur == s || ParentLink(m, n, st, cur);
      }
    }
  }

  lemma ChangedKeepsExpanded(m: Moves, n: nat, t: nat, st: Nodes, st': Nodes, nb: nat, cur: nat, k: int)
    requires SearchSized(m, n, st) && SearchSized(m, n, st') && nb < n && cur < n && 0 <= k <= |m.deltas|
    requires ClosedExpanded(m, n, t, st, cur) && Expanded(m, st.openList, cur, k)
    requires st'.closedList == st.closedList && forall i :: 0 <= i < n && st.openList[i] ==> st'.openList[i]
    ensures ClosedExpanded(m, n, t, st', cur) && Expanded(m, st'.openList, cur, k)
  {
    forall c | 0 <= c < n && st'.closedList[c] && c != t && c != cur
      ensures Expanded(m, st'.openList, c, |m.deltas|)
    {
      ExpandedGrows(m, st.openList, st'.openList, c, |m.deltas|);
    }
    ExpandedGrows(m, st.openList, st'.openList, cur, k);
  }

  /** Relaxing the k-th neighbour of the node being expanded keeps the
      search invariant and completes direction k. */
  lemma RelaxKeepsInv(m: Moves, n: nat, s: nat, t: nat, target: (int, int), st: Nodes, cur: nat, k: int, f: Factors)
    requires Inv(m, n, s, t, st, cur) && cur < n && st.closedList[cur] && cur != t && st.closedList[s]
    requires 0 <= k < |m.deltas| && Expanded(m, st.openList, cur, k)
    requires var p := Coords(m.grid, cur); var nb := Neighbor(p.0, p.1, m.deltas[k]);
      IsValidPosition(m, nb.0, nb.1)
    ensures var p := Coords(m.grid, cur); var nb := Neighbor(p.0, p.1, m.deltas[k]);
      var st' := Relax(m, n, st, cur, nb.0, nb.1, target, f);
      Inv(m, n, s, t, st', cur) && st'.closedList == st.closedList
      && Expanded(m, st'.openList, cur, k + 1)
  {
    var p := Coords(m.grid, cur);
    var nbc := Neighbor(p.0, p.1, m.deltas[k]);
    var nb := FlatIdx(m.grid, nbc.0, nbc.1);
    var st' := Relax(m, n, st, cur, nbc.0, nbc.1, target, f);
    NeighborNode(m, cur, k);
    RelaxChangedOnly(m, n, st, cur, nbc.0, nbc.1, target, f);
    if st' == st {
      assert st.closedList[nb] || st.openList[nb];
    } else {
      ChangedKeepsQueue(n, st, st', nb, cur);
      ChangedKeepsTree(m, n, s, st, st', nb, cur);
      ChangedKeepsExpanded(m, n, t, st, st', nb, cur, k);
      assert st'.openList[nb];
    }
  }

  /** The neighbour loop of one closed, non-target node. Afterwards every
      allowed neighbour of cur is open, and no closed bit changed. */
  method Expand(m: Moves, n: nat, s: nat, t: nat, target: (int, int), st0: Nodes, cur: nat, f: Factors) returns (st: Nodes)
    requires Inv(m, n, s, t, st0, cur) && cur < n && st0.closedList[cur] && cur != t && st0.closedList[s]
    ensures Inv(m, n, s, t, st, -1) && st.closedList == st0.closedList
  {
    st := st0;
    var x, y := GetX(m.grid, cur), GetY(m.grid, cur);
    var i := 0;
    while i < |m.deltas|
      invariant 0 <= i <= |m.deltas|
      invariant Inv(m, n, s, t, st, cur) && st.closedList == st0.closedList
      invariant Expanded(m, st.openList, cur, i)
    {
      var neighbor := Neighbor(x, y, m.deltas[i]);
      if IsValidPosition(m, neighbor.0, neighbor.1) {
        RelaxKeepsInv(m, n, s, t, target, st, cur, i, f);
        st := Relax(m, n, st, cur, neighbor.0, neighbor.1, target, f);
      } else {
        ExpandedSkip(m, st.openList, cur, i);
      }
      i := i + 1;
    }
    ExpandedDone(m, n, s, t, st, cur);
  }

  lemma ExpandedSkip(m: Moves, open: seq<bool>, c: nat, k: int)
    requires Positive(m.grid) && |open| == Size(m.grid) && c < |open| && 0 <= k < |m.deltas|
    requires Expanded(m, open, c, k)
    requires var p := Coords(m.grid, c); var nb := Neighbor(p.0, p.1, m.deltas[k]); !IsValidPosition(m, nb.0, nb.1)
    ensures Expanded(m, open, c, k + 1)
  {
  }

  lemma ExpandedDone(m: Moves, n: nat, s: nat, t: nat, st: Nodes, cur: nat)
    requires Inv(m, n, s, t, st, cur) && cur < n && Expanded(m, st.openList, cur, |m.deltas|)
    ensures Inv(m, n, s, t, st, -1)
  {
  }

  /** Number of unset bits: the loop measure over `closedList`. */
  function CountFalse(bits: seq<bool>): nat
  {
    if |bits| == 0 then 0 else (if bits[0] then 0 else 1) + CountFalse(bits[1..])
  }

  /** Setting one unset bit lowers the count of unset bits by one. */
  lemma {:induction false} CountFalseSet(bits: seq<bool>, i: int)
    requires 0 <= i < |bits| && !bits[i]
    ensures CountFalse(bits[i := true]) == CountFalse(bits) - 1
    decreases |bits|
  {
    if i > 0 {
      CountFalseSet(bits[1..], i - 1);
      assert bits[i := true][1..] == bits[1..][i - 1 := true];
    } else {
      assert bits[i := true][1..] == bits[1..];
    }
  }

  /** Closing the node just taken from the queue keeps the invariant, with
      that node now the one awaiting expansion. */
  lemma CloseKeepsInv(m: Moves, n: nat, s: nat, t: nat, st: Nodes, cur: nat, heap': seq<nat>, dph': seq<int>)
    requires Inv(m, n, s, t, st, -1) && cur in st.heap && cur !in heap'
    requires multiset(heap') == multiset(st.heap) - multiset{cur}
    requires Distinct(heap') && SlotsConsistent(heap', dph') && |dph'| == |st.depthParentHeap|
    requires forall k :: 0 <= k < |dph'| && k % 3 != 2 ==> dph'[k] == st.depthParentHeap[k]
    ensures cur < n && !st.closedList[cur]
    ensures var st' := st.(heap := heap', depthParentHeap := dph', closedList := st.closedList[cur := true]);
      Inv(m, n, s, t, st', cur) && st'.closedList[s]
  {
    assert cur < n && !st.closedList[cur] by {
      var j :| 0 <= j < |st.heap| && st.heap[j] == cur;
    }
    CloseKeepsQueue(n, st, cur, heap', dph');
    CloseKeepsTree(m, n, s, st, cur, heap', dph');
    assert st.closedList[cur := true][s] by {
      if !st.closedList[s] {
        assert st.heap == [s];
      }
    }
  }

  /** Closing the extracted node: the queue still holds exactly the open,
      unclosed nodes. */
  lemma CloseKeepsQueue(n: nat, st: Nodes, cur: nat, heap': seq<nat>, dph': seq<int>)
    requires Sized(n, st) && QueueExact(n, st) && cur < n && cur in st.heap && cur !in heap'
    requires multiset(heap') == multiset(st.heap) - multiset{cur}
    requires Distinct(heap') && SlotsConsistent(heap', dph') && |dph'| == |st.depthParentHeap|
    ensures QueueExact(n, st.(heap := heap', depthParentHeap := dph', closedList := st.closedList[cur := true]))
  {
    var st' := st.(heap := heap', depthParentHeap := dph', closedList := st.closedList[cur := true]);
    RemovedMembers(st.heap, heap', cur);
    forall j | 0 <= j < |heap'|
      ensures heap'[j] < n && st'.openList[heap'[j]] && !st'.closedList[heap'[j]]
    {
      assert heap'[j] in heap';
      var j0 :| 0 <= j0 < |st.heap| && st.heap[j0] == heap'[j];
    }
  }

  /** Closing the extracted node: depths and parents are untouched, so the
      search tree is kept. */
  lemma CloseKeepsTree(m: Moves, n: nat, s: nat, st: Nodes, cur: nat, heap': seq<nat>, dph': seq<int>)
    requires SearchSized(m, n, st) && SearchTree(m, n, s, st) && cur < n
    requires |dph'| == |st.depthParentHeap|
    requires forall k :: 0 <= k < |dph'| && k % 3 != 2 ==> dph'[k] == st.depthParentHeap[k]
    ensures SearchTree(m, n, s, st.(heap := heap', depthParentHeap := dph', closedList := st.closedList[cur := true]))
  {
    var st' := st.(heap := heap', depthParentHeap := dph', closedList := st.closedList[cur := true]);
    forall i | 0 <= i < n
      ensures Depth(st', i) == Depth(st, i) && Parent(st', i) == Parent(st, i)
    {
      assert DepthIdx(i) % 3 == 0 && ParentIdx(i) % 3 == 1;
    }
    forall i | 0 <= i < n && st'.openList[i] && i != s
      ensures ParentLink(m, n, st', i)
    {
      assert ParentLink(m, n, st, i);
    }
  }

  /** `closedList.clear()`, `openList.clear()`, `open.clear()` and
      `initStartNode`: only the start is known, at depth 0 without a parent,
      at cost 0 with its heuristic estimate. The other cost, heuristic,
      depth and parent fields keep whatever the previous call left there. */
  method InitSearch(m: Moves, n: nat, s: nat, t: nat, target: (int, int), nodes: Nodes, f: Factors) returns (st: Nodes)
    requires SearchSized(m, n, nodes) && s < n && t < n
    ensures Inv(m, n, s, t, st, -1) && st.heap == [s]
    ensures forall i :: 0 <= i < n ==> !st.closedList[i] && (st.openList[i] <==> i == s)
    ensures Cost(st, s) == 0.0
    ensures var p := Coords(m.grid, s); Heur(st, s) == HeuristicCost(p.0, p.1, target.0, target.1, f)
    ensures forall i :: 0 <= i < n && i != s ==>
      && Cost(st, i) == Cost(nodes, i) && Heur(st, i) == Heur(nodes, i)
      && Depth(st, i) == Depth(nodes, i) && Parent(st, i) == Parent(nodes, i)
  {
    var closedList := seq(n, _ => false);
    var openList := seq(n, _ => false);
    var (heap, dph) := Insert([], nodes.depthParentHeap, s);
    openList := openList[s := true];
    SlotsDisjoint(n, s, s);
    dph := dph[DepthIdx(s) := 0][ParentIdx(s) := -1];
    var p := Coords(m.grid, s);
    var cah := nodes.costsAndHeuristics[CostsIdx(s) := 0.0][HeuristicIdx(s) := HeuristicCost(p.0, p.1, target.0, target.1, f)];
    st := Nodes(openList, closedList, cah, dph, heap);
    forall i | 0 <= i < n && i != s
      ensures Cost(st, i) == Cost(nodes, i) && Heur(st, i) == Heur(nodes, i)
      ensures Depth(st, i) == Depth(nodes, i) && Parent(st, i) == Parent(nodes, i)
    {
      SlotsDisjoint(n, s, i);
    }
    assert SlotsConsistent(heap, dph) by {
      assert heap == [s];
    }
    InitInv(m, n, s, t, st);
  }

  /** A search that knows only its start, queued alone at depth 0 without
      a parent and with nothing closed, satisfies the search invariant. */
  lemma InitInv(m: Moves, n: nat, s: nat, t: nat, st: Nodes)
    requires SearchSized(m, n, st) && s < n && t < n
    requires st.heap == [s] && SlotsConsistent(st.heap, st.depthParentHeap)
    requires forall i :: 0 <= i < n ==> !st.closedList[i] && (st.openList[i] <==> i == s)
    requires Depth(st, s) == 0 && Parent(st, s) == -1
    ensures Inv(m, n, s, t, st, -1)
  {
  }

  /** The search loop: repeatedly close a node of minimal rank; stop when
      it is the target or the queue is empty. */
  method Search(m: Moves, n: nat, s: nat, t: nat, target: (int, int), nodes: Nodes, f: Factors) returns (found: bool, st: Nodes)
    requires SearchSized(m, n, nodes) && s < n && t < n && s != t
    ensures Inv(m, n, s, t, st, -1)
    ensures found <==> st.closedList[t]
    ensures !found ==> st.heap == []
  {
    st := InitSearch(m, n, s, t, target, nodes, f);
    found := false;
    while !found && |st.heap| > 0
      invariant Inv(m, n, s, t, st, -1)
      invariant found <==> st.closedList[t]
      decreases CountFalse(st.closedList)
    {
      assert RanksDefined(st.heap, st.costsAndHeuristics) by {
        forall k | 0 <= k < |st.heap|
          ensures HeuristicIdx(st.heap[k]) < |st.costsAndHeuristics|
        {
          SlotsDisjoint(n, st.heap[k], st.heap[k]);
        }
      }
      var cur, heap', dph' := DeleteMin(st.heap, st.depthParentHeap, st.costsAndHeuristics);
      CloseKeepsInv(m, n, s, t, st, cur, heap', dph');
      CountFalseSet(st.closedList, cur);
      st := st.(heap := heap', depthParentHeap := dph', closedList := st.closedList[cur := true]);
      if cur == t {
        found := true;
      } else {
        st := Expand(m, n, s, t, target, st, cur, f);
      }
    }
  }

  /** The path rebuilt backwards along the parent chain from the target:
      `depth[target]` positions, the last one the target, each one step
      from the one before it, the first one step from the start. */
  method Reconstruct(m: Moves, n: nat, s: nat, t: nat, st: Nodes) returns (path: seq<(int, int)>)
    requires SearchSized(m, n, st) && t < n && SearchTree(m, n, s, st) && ClosedAreOpen(n, st)
    requires st.openList[t] && t != s
    ensures |path| == Depth(st, t) && |path| > 0
    ensures path[|path| - 1] == Coords(m.grid, t)
    ensures IsWalk(m, Coords(m.grid, s), path)
    ensures forall k :: 0 <= k < |path| ==> path[k] != Coords(m.grid, s)
  {
    assert ParentLink(m, n, st, t);
    var pathLength := Depth(st, t);
    path := seq(pathLength, _ => (0, 0));
    var idx := pathLength;
    var parentFlatIdx: nat := t;
    while idx > 0
      invariant 0 <= idx <= pathLength && |path| == pathLength
      invariant parentFlatIdx < n && st.openList[parentFlatIdx] && Depth(st, parentFlatIdx) == idx
      invariant IsWalk(m, Coords(m.grid, parentFlatIdx), path[idx..])
      invariant idx == pathLength ==> parentFlatIdx == t
      invariant idx < pathLength ==> path[pathLength - 1] == Coords(m.grid, t)
      invariant forall k :: idx <= k < pathLength ==> path[k] != Coords(m.grid, s)
      decreases idx
    {
      idx := idx - 1;
      ReconstructStep(m, n, s, st, parentFlatIdx, idx, path);
      path := path[idx := Coords(m.grid, parentFlatIdx)];
      parentFlatIdx := Parent(st, parentFlatIdx);
    }
    assert parentFlatIdx != s ==> ParentLink(m, n, st, parentFlatIdx);
    assert path[0..] == path;
  }

  /** One step back along the parent chain: the node written at idx is an
      allowed step from its parent, which sits one level up, and it is not
      the start. */
  lemma ReconstructStep(m: Moves, n: nat, s: nat, st: Nodes, p: nat, idx: nat, path: seq<(int, int)>)
    requires SearchSized(m, n, st) && SearchTree(m, n, s, st) && ClosedAreOpen(n, st)
    requires p < n && st.openList[p] && Depth(st, p) == idx + 1 && idx < |path|
    requires IsWalk(m, Coords(m.grid, p), path[idx + 1..])
    ensures var q := Parent(st, p); var path' := path[idx := Coords(m.grid, p)];
      && 0 <= q < n && st.openList[q] && Depth(st, q) == idx
      && IsWalk(m, Coords(m.grid, q), path'[idx..])
      && Coords(m.grid, p) != Coords(m.grid, s)
      && path'[idx + 1..] == path[idx + 1..]
  {
    assert p != s;
    assert ParentLink(m, n, st, p);
    var node := Coords(m.grid, p);
    var rest := path[idx + 1..];
    var path' := path[idx := node];
    assert path'[idx..] == [node] + rest;
    assert ([node] + rest)[1..] == rest;
    FlatIdxOfCoords(m.grid, p);
    FlatIdxOfCoords(m.grid, s);
  }

  /** Every node the search has opened, other than the start, was entered
      by an allowed step; so when the start is free, no blocked tile is
      ever opened. */
  lemma OpenedAreAllowed(m: Moves, n: nat, s: nat, t: nat, st: Nodes, i: nat)
    requires Inv(m, n, s, t, st, -1) && i < n && st.openList[i] && i != s
    ensures var p := Coords(m.grid, i); IsValidPosition(m, p.0, p.1)
    ensures var p := Coords(m.grid, i); !m.blockedAtStart ==> !IsBlocked(m, p.0, p.1)
  {
    assert ParentLink(m, n, st, i);
  }

  /** When the queue runs dry without closing the target, every open node
      is closed and fully expanded, and the target is not open. */
  lemma ExhaustedIsSealed(m: Moves, n: nat, s: nat, t: nat, st: Nodes)
    requires Inv(m, n, s, t, st, -1) && st.heap == [] && !st.closedList[t]
    ensures Sealed(m, n, t, st)
  {
  }

  /** The open nodes are closed under allowed steps, and the target is not
      among them. */
  ghost predicate Sealed(m: Moves, n: nat, t: nat, st: Nodes)
    requires SearchSized(m, n, st)
  {
    && t < n && !st.openList[t]
    && forall c {:trigger Expanded(m, st.openList, c, |m.deltas|)} :: 0 <= c < n && st.openList[c] ==> Expanded(m, st.openList, c, |m.deltas|)
  }

  lemma SealedStep(m: Moves, n: nat, t: nat, st: Nodes, from: nat, b: (int, int))
    requires SearchSized(m, n, st) && t < n && from < n && Sealed(m, n, t, st)
    requires st.openList[from] && IsStep(m, Coords(m.grid, from), b)
    ensures InBounds(m.grid, b.0, b.1) && st.openList[FlatIdx(m.grid, b.0, b.1)]
    ensures Coords(m.grid, FlatIdx(m.grid, b.0, b.1)) == b && b != Coords(m.grid, t)
  {
    assert Expanded(m, st.openList, from, |m.deltas|);
    ExpandedStep(m, st.openList, from, b);
    CoordsOfFlatIdx(m.grid, b.0, b.1);
    FlatIdxOfCoords(m.grid, t);
  }

  /** A fully expanded node has every allowed step from it open. */
  lemma ExpandedStep(m: Moves, open: seq<bool>, c: nat, b: (int, int))
    requires Positive(m.grid) && |open| == Size(m.grid) && c < |open|
    requires Expanded(m, open, c, |m.deltas|) && IsStep(m, Coords(m.grid, c), b)
    ensures InBounds(m.grid, b.0, b.1) && open[FlatIdx(m.grid, b.0, b.1)]
  {
    var p := Coords(m.grid, c);
    var k :| 0 <= k < |m.deltas| && b == (p.0 + m.deltas[k].0, p.1 + m.deltas[k].1)
             && IsValidPosition(m, b.0, b.1);
    ExpandedAt(m, open, c, k);
  }

  /** Direction k of a fully expanded node: the allowed neighbour there,
      computed without the cast, is open. */
  lemma ExpandedAt(m: Moves, open: seq<bool>, c: nat, k: int)
    requires Positive(m.grid) && |open| == Size(m.grid) && c < |open| && 0 <= k < |m.deltas|
    requires Expanded(m, open, c, |m.deltas|)
    ensures var p := Coords(m.grid, c); var b := (p.0 + m.deltas[k].0, p.1 + m.deltas[k].1);
      IsValidPosition(m, b.0, b.1) ==> open[FlatIdx(m.grid, b.0, b.1)]
  {
    var p := Coords(m.grid, c);
    NeighborIsStep(m, p.0, p.1, k);
  }

  /** A walk leaving an open node of a sealed search never reaches the
      target. */
  lemma {:induction false} WalkStaysExplored(m: Moves, n: nat, t: nat, st: Nodes, from: nat, w: seq<(int, int)>)
    requires SearchSized(m, n, st) && t < n && from < n && Sealed(m, n, t, st)
    requires st.openList[from] && IsWalk(m, Coords(m.grid, from), w)
    ensures forall k :: 0 <= k < |w| ==> w[k] != Coords(m.grid, t)
    decreases |w|
  {
    if |w| > 0 {
      SealedStep(m, n, t, st, from, w[0]);
      WalkStaysExplored(m, n, t, st, FlatIdx(m.grid, w[0].0, w[0].1), w[1..]);
      forall j | 1 <= j < |w|
        ensures w[j] != Coords(m.grid, t)
      {
        assert w[j] == w[1..][j - 1];
      }
    }
  }

  /** The moves a search from (sx, sy) may make, once validation passed. */
  function MovesOf(e: Engine, pm: PathMap, req: Requester, deltas: seq<(Byte, Byte)>, blockedAtStart: bool): Moves
  {
    Moves(pm, req, e.grid, deltas, blockedAtStart)
  }

  /** `findPath(requester, sx, sy, tx, ty)`. A rejected request leaves the
      engine untouched. Otherwise the weights are swapped, the search runs
      on the reused buffers, and the answer is either a walk of allowed
      steps from the start that ends at the target and never revisits the
      start, or `null` when no walk of allowed steps reaches the target. */
  method FindPath(e: Engine, pm: PathMap, deltas: seq<(Byte, Byte)>, req: Requester, sx: Short, sy: Short, tx: Short, ty: Short)
    returns (out: Outcome, e': Engine)
    requires Wellformed(e)
    ensures Wellformed(e') && e'.grid == e.grid
    ensures var v := Validate(e.grid, pm, req, sx, sy, tx, ty);
      && (v.Reject? ==> out == v.outcome && e' == e)
      && (v.Proceed? ==> e'.factors == Swapped(e.factors) && (out.Found? || out == NoPath))
    ensures out.Found? ==>
      var m := MovesOf(e, pm, req, deltas, pm.isBlocked(req, sx, sy));
      && |out.path| > 0 && out.path[|out.path| - 1] == (tx as int, ty as int)
      && IsWalk(m, (sx as int, sy as int), out.path)
      && forall k :: 0 <= k < |out.path| ==> out.path[k] != (sx as int, sy as int)
    ensures Validate(e.grid, pm, req, sx, sy, tx, ty).Proceed? && out == NoPath ==>
      var m := MovesOf(e, pm, req, deltas, pm.isBlocked(req, sx, sy));
      forall w :: IsWalk(m, (sx as int, sy as int), w) ==>
        forall k :: 0 <= k < |w| ==> w[k] != (tx as int, ty as int)
  {
    var v := Validate(e.grid, pm, req, sx, sy, tx, ty);
    if v.Reject? {
      return v.outcome, e;
    }
    var m := MovesOf(e, pm, req, deltas, v.blockedAtStart);
    var f := Swapped(e.factors);
    var n := Size(e.grid);
    var s := FlatIdx(e.grid, sx, sy);
    var t := FlatIdx(e.grid, tx, ty);
    CoordsOfFlatIdx(e.grid, sx, sy);
    CoordsOfFlatIdx(e.grid, tx, ty);
    var found, st := Search(m, n, s, t, (tx as int, ty as int), e.nodes, f);
    e' := Engine(e.grid, f, st);
    if found {
      var path := Reconstruct(m, n, s, t, st);
      out := Found(path);
    } else {
      ExhaustedIsSealed(m, n, s, t, st);
      forall w | IsWalk(m, (sx as int, sy as int), w)
        ensures forall k :: 0 <= k < |w| ==> w[k] != (tx as int, ty as int)
      {
        WalkStaysExplored(m, n, t, st, s, w);
      }
      out := NoPath;
    }
  }

  /** `findPath(requester, target)`: a search from the requester's own
      position, with every promise of `findPath` for that start. */
  method FindPathTo(e: Engine, pm: PathMap, deltas: seq<(Byte, Byte)>, req: Requester, tx: Short, ty: Short)
    returns (out: Outcome, e': Engine)
    requires Wellformed(e)
    ensures Wellformed(e') && e'.grid == e.grid
    ensures out == InvalidStartPosition(req.x, req.y) <==> !InBounds(e.grid, req.x, req.y)
    ensures var v := Validate(e.grid, pm, req, req.x, req.y, tx, ty);
      && (v.Reject? ==> out == v.outcome && e' == e)
      && (v.Proceed? ==> e'.factors == Swapped(e.factors) && (out.Found? || out == NoPath))
    ensures out.Found? ==>
      var m := MovesOf(e, pm, req, deltas, pm.isBlocked(req, req.x, req.y));
      && |out.path| > 0 && out.path[|out.path| - 1] == (tx as int, ty as int)
      && IsWalk(m, (req.x as int, req.y as int), out.path)
      && forall k :: 0 <= k < |out.path| ==> out.path[k] != (req.x as int, req.y as int)
    ensures Validate(e.grid, pm, req, req.x, req.y, tx, ty).Proceed? && out == NoPath ==>
      var m := MovesOf(e, pm, req, deltas, pm.isBlocked(req, req.x, req.y));
      forall w :: IsWalk(m, (req.x as int, req.y as int), w) ==>
        forall k :: 0 <= k < |w| ==> w[k] != (tx as int, ty as int)
  {
    out, e' := FindPath(e, pm, deltas, req, req.x, req.y, tx, ty);
  }

  /** When the requester starts on a free tile, a found path only crosses
      free tiles of the grid. */
  lemma FoundPathAvoidsBlocked(e: Engine, pm: PathMap, deltas: seq<(Byte, Byte)>, req: Requester, sx: Short, sy: Short, path: seq<(int, int)>)
    requires !pm.isBlocked(req, sx, sy)
    requires IsWalk(MovesOf(e, pm, req, deltas, pm.isBlocked(req, sx, sy)), (sx as int, sy as int), path)
    ensures forall k :: 0 <= k < |path| ==> InBounds(e.grid, path[k].0, path[k].1) && !pm.isBlocked(req, path[k].0, path[k].1)
  {
    WalkAvoidsBlocked(MovesOf(e, pm, req, deltas, false), (sx as int, sy as int), path);
  }

  /** One call of `findPath(requester, sx, sy, tx, ty)`. */
  datatype Request = Request(req: Requester, sx: Short, sy: Short, tx: Short, ty: Short)

  predicate Accepted(g: Grid, pm: PathMap, r: Request)
  {
    Validate(g, pm, r.req, r.sx, r.sy, r.tx, r.ty).Proceed?
  }

  /** How many of the requests pass validation. */
  function AcceptedCount(g: Grid, pm: PathMap, rs: seq<Request>): nat
  {
    if |rs| == 0 then 0
    else AcceptedCount(g, pm, rs[..|rs| - 1]) + (if Accepted(g, pm, rs[|rs| - 1]) then 1 else 0)
  }

  /** A sequence of calls on one engine. Only calls that pass validation
      swap the weights, so after the sequence the weights are the initial
      ones swapped once per accepted call; from a fresh engine they are
      back to (1.01, 1.02) exactly when that number is even. */
  method RunSearches(e: Engine, pm: PathMap, deltas: seq<(Byte, Byte)>, rs: seq<Request>)
    returns (outs: seq<Outcome>, e': Engine)
    requires Wellformed(e)
    ensures Wellformed(e') && e'.grid == e.grid && |outs| == |rs|
    ensures e'.factors == AfterSwaps(e.factors, AcceptedCount(e.grid, pm, rs))
    ensures e.factors == INITIAL_FACTORS ==>
      (e'.factors == INITIAL_FACTORS <==> AcceptedCount(e.grid, pm, rs) % 2 == 0)
    ensures forall i :: 0 <= i < |rs| && !Accepted(e.grid, pm, rs[i]) ==>
      outs[i] == Validate(e.grid, pm, rs[i].req, rs[i].sx, rs[i].sy, rs[i].tx, rs[i].ty).outcome
  {
    outs := [];
    e' := e;
    var i := 0;
    while i < |rs|
      invariant 0 <= i <= |rs| && |outs| == i
      invariant Wellformed(e') && e'.grid == e.grid
      invariant e'.factors == AfterSwaps(e.factors, AcceptedCount(e.grid, pm, rs[..i]))
      invariant forall j :: 0 <= j < i && !Accepted(e.grid, pm, rs[j]) ==>
        outs[j] == Validate(e.grid, pm, rs[j].req, rs[j].sx, rs[j].sy, rs[j].tx, rs[j].ty).outcome
    {
      var r := rs[i];
      var out;
      out, e' := FindPath(e', pm, deltas, r.req, r.sx, r.sy, r.tx, r.ty);
      assert rs[..i + 1][..i] == rs[..i];
      outs := outs + [out];
      i := i + 1;
    }
    assert rs[..i] == rs;
    if e.factors == INITIAL_FACTORS {
      AfterSwapsParity(AcceptedCount(e.grid, pm, rs));
    }
  }
}

=== FILE: hex_grid.dfy ===
/** The flat coordinate space of the hex A* engine: Java `short`/`byte`
    ranges, the narrowing cast used when a neighbour is computed, the
    bijection between grid coordinates and flat node indices, and the fixed
    slot layout of the two per-node buffers. */
module HexGrid {

  /** A Java `short`. */
  type Short = v: int | -0x8000 <= v <= 0x7fff

  /** A Java `byte` (the element type of the direction delta tables). */
  type Byte = v: int | -0x80 <= v <= 0x7f

  /** Java's `(short)` narrowing cast: keep the low 16 bits, read them as
      two's complement. */
  function ToShort(v: int): (r: Short)
    ensures (v - r) % 0x1_0000 == 0
    ensures -0x8000 <= v <= 0x7fff ==> r == v
  {
    var m := v % 0x1_0000;
    if m < 0x8000 then m else m - 0x1_0000
  }

  /** Moving a coordinate by a byte delta from inside a grid of at most
      0x7fff columns either lands outside the grid after the cast, or the
      cast did not wrap at all. */
  lemma NoWrapInBounds(x: int, dx: Byte, width: Short)
    requires 0 <= x < width
    ensures 0 <= ToShort(x + dx) < width ==> ToShort(x + dx) == x + dx
    ensures 0 <= x + dx < width ==> ToShort(x + dx) == x + dx
  {
  }

  /** The fixed extent of a grid. */
  datatype Grid = Grid(width: Short, height: Short)

  predicate InBounds(g: Grid, x: int, y: int)
  {
    0 <= x < g.width && 0 <= y < g.height
  }

  /** Number of nodes, the length of every per-node buffer. */
  function Size(g: Grid): int
  {
    g.width as int * g.height
  }

  /** A grid with at least one column and one row. */
  predicate Positive(g: Grid)
  {
    g.width > 0 && g.height > 0
  }

  /** Multiplying by a positive factor keeps the order. */
  lemma MulMono(a: int, b: int, w: int)
    ensures a <= b && w > 0 ==> a * w <= b * w
  {
    if a <= b && w > 0 {
      assert b * w - a * w == (b - a) * w;
    }
  }

  /** Euclidean division has exactly one quotient/remainder pair. */
  lemma DivModUnique(i: int, w: int, q: int, r: int)
    requires w > 0 && 0 <= r < w && i == q * w + r
    ensures i / w == q && i % w == r
  {
    var q0, r0 := i / w, i % w;
    assert (q - q0) * w == r0 - r;
    MulMono(1, q - q0, w);
    MulMono(1, q0 - q, w);
  }

  lemma MulStrictBound(y: int, w: int, h: int)
    requires w > 0 && 0 <= y < h
    ensures y * w + w <= h * w
  {
    MulMono(y + 1, h, w);
  }

  lemma QuotientBelow(i: int, w: int, h: int)
    requires w > 0 && 0 <= i < w * h
    ensures 0 <= i / w < h
  {
    MulMono(h, i / w, w);
  }

  function FlatIdx(g: Grid, x: int, y: int): (i: nat)
    requires InBounds(g, x, y)
    ensures i < Size(g)
  {
    MulStrictBound(y, g.width, g.height);
    y * g.width + x
  }

  function GetX(g: Grid, i: int): (x: Short)
    requires Positive(g) && 0 <= i < Size(g)
    ensures 0 <= x < g.width
  {
    i % g.width
  }

  function GetY(g: Grid, i: int): (y: Short)
    requires Positive(g) && 0 <= i < Size(g)
    ensures 0 <= y < g.height
  {
    QuotientBelow(i, g.width, g.height);
    i / g.width
  }

  /** Grid coordinates of a flat node index. */
  function Coords(g: Grid, i: int): (p: (int, int))
    requires Positive(g) && 0 <= i < Size(g)
    ensures InBounds(g, p.0, p.1)
  {
    (GetX(g, i), GetY(g, i))
  }

  /** Coordinates -> flat index -> coordinates is the identity on the grid. */
  lemma CoordsOfFlatIdx(g: Grid, x: int, y: int)
    requires InBounds(g, x, y)
    ensures Coords(g, FlatIdx(g, x, y)) == (x, y)
  {
    DivModUnique(FlatIdx(g, x, y), g.width, y, x);
  }

  /** Flat index -> coordinates -> flat index is the identity on the grid. */
  lemma FlatIdxOfCoords(g: Grid, i: int)
    requires Positive(g) && 0 <= i < Size(g)
    ensures FlatIdx(g, GetX(g, i), GetY(g, i)) == i
  {
  }

  /** Different in-bounds coordinates never share a flat index. */
  lemma FlatIdxInjective(g: Grid, x0: int, y0: int, x1: int, y1: int)
    requires InBounds(g, x0, y0) && InBounds(g, x1, y1)
    requires FlatIdx(g, x0, y0) == FlatIdx(g, x1, y1)
    ensures x0 == x1 && y0 == y1
  {
    CoordsOfFlatIdx(g, x0, y0);
    CoordsOfFlatIdx(g, x1, y1);
  }

  // Slot layout. `costsAndHeuristics` holds two floats per node,
  // `depthParentHeap` three ints per node; the slot of field f of node i is
  // (fields per node) * i + f.

  function CostsIdx(i: nat): (k: nat)
    ensures k % 2 == 0 && k / 2 == i
  {
    2 * i
  }

  function HeuristicIdx(i: nat): (k: nat)
    ensures k % 2 == 1 && k / 2 == i
  {
    2 * i + 1
  }

  function DepthIdx(i: nat): (k: nat)
    ensures k % 3 == 0 && k / 3 == i
  {
    3 * i
  }

  function ParentIdx(i: nat): (k: nat)
    ensures k % 3 == 1 && k / 3 == i
  {
    3 * i + 1
  }

  function HeapArrayIdx(i: nat): (k: nat)
    ensures k % 3 == 2 && k / 3 == i
  {
    3 * i + 2
  }

  /** The slots of a node lie inside buffers sized for n nodes, and no two
      (node, field) pairs share a slot. */
  lemma SlotsDisjoint(n: nat, i: nat, j: nat)
    requires i < n && j < n
    ensures CostsIdx(i) < 2 * n && HeuristicIdx(i) < 2 * n
    ensures DepthIdx(i) < 3 * n && ParentIdx(i) < 3 * n && HeapArrayIdx(i) < 3 * n
    ensures CostsIdx(i) != HeuristicIdx(j)
    ensures DepthIdx(i) != ParentIdx(j) && DepthIdx(i) != HeapArrayIdx(j) && ParentIdx(i) != HeapArrayIdx(j)
    ensures i != j ==> CostsIdx(i) != CostsIdx(j) && HeuristicIdx(i) != HeuristicIdx(j)
    ensures i != j ==> DepthIdx(i) != DepthIdx(j) && ParentIdx(i) != ParentIdx(j) && HeapArrayIdx(i) != HeapArrayIdx(j)
  {
  }
}

=== FILE: min_queue.dfy ===
/** The engine's open queue (`AStarMinHeap`) as an abstract priority queue:
    a collection of distinct node ids, each knowing its own slot through the
    heap-index field of `depthParentHeap`, and ordered by the rank the
    engine reports for a node (`getRank`). The heap's internal order is not
    modelled; extraction scans for a minimal rank, so a rank that improved
    while the node was queued needs no repositioning. */
module MinQueue {
  import opened HexGrid

  /** `getRank`: accumulated cost plus heuristic estimate. */
  function GetRank(costsAndHeuristics: seq<real>, id: nat): real
    requires HeuristicIdx(id) < |costsAndHeuristics|
  {
    costsAndHeuristics[CostsIdx(id)] + costsAndHeuristics[HeuristicIdx(id)]
  }

  /** `getHeapIdx`. */
  function GetHeapIdx(depthParentHeap: seq<int>, id: nat): int
    requires HeapArrayIdx(id) < |depthParentHeap|
  {
    depthParentHeap[HeapArrayIdx(id)]
  }

  /** `setHeapIdx`: the new slot is read back by `GetHeapIdx`, and no other
      field of any node changes. */
  function SetHeapIdx(depthParentHeap: seq<int>, id: nat, idx: int): (r: seq<int>)
    requires HeapArrayIdx(id) < |depthParentHeap|
    ensures |r| == |depthParentHeap| && GetHeapIdx(r, id) == idx
    ensures forall k :: 0 <= k < |r| && k != HeapArrayIdx(id) ==> r[k] == depthParentHeap[k]
  {
    depthParentHeap[HeapArrayIdx(id) := idx]
  }

  predicate Distinct(q: seq<nat>)
  {
    forall a, b :: 0 <= a < b < |q| ==> q[a] != q[b]
  }

  /** Every queued id's heap-index field holds its true position. */
  ghost predicate SlotsConsistent(q: seq<nat>, depthParentHeap: seq<int>)
  {
    forall k :: 0 <= k < |q| ==> HeapArrayIdx(q[k]) < |depthParentHeap| && GetHeapIdx(depthParentHeap, q[k]) == k
  }

  ghost predicate RanksDefined(q: seq<nat>, costsAndHeuristics: seq<real>)
  {
    forall k :: 0 <= k < |q| ==> HeuristicIdx(q[k]) < |costsAndHeuristics|
  }

  /** `insert`: the id joins the queue at the next free slot. */
  function Insert(q: seq<nat>, depthParentHeap: seq<int>, id: nat): (r: (seq<nat>, seq<int>))
    requires HeapArrayIdx(id) < |depthParentHeap|
    requires id !in q && Distinct(q) && SlotsConsistent(q, depthParentHeap)
    ensures multiset(r.0) == multiset(q) + multiset{id} && id in r.0
    ensures Distinct(r.0) && SlotsConsistent(r.0, r.1)
    ensures |r.1| == |depthParentHeap|
    ensures forall k :: 0 <= k < |r.1| && k != HeapArrayIdx(id) ==> r.1[k] == depthParentHeap[k]
  {
    var q' := q + [id];
    var dph' := SetHeapIdx(depthParentHeap, id, |q|);
    assert forall k :: 0 <= k < |q| ==> q'[k] == q[k] && q[k] != id;
    (q', dph')
  }

  /** `deleteMin`: removes and returns an id of minimal rank. The last
      queued id moves into the freed slot, and only heap-index fields
      change. */
  method DeleteMin(q: seq<nat>, depthParentHeap: seq<int>, costsAndHeuristics: seq<real>)
    returns (id: nat, q': seq<nat>, depthParentHeap': seq<int>)
    requires |q| > 0
    requires Distinct(q) && SlotsConsistent(q, depthParentHeap) && RanksDefined(q, costsAndHeuristics)
    ensures id in q && id !in q'
    ensures forall j :: 0 <= j < |q| ==> GetRank(costsAndHeuristics, id) <= GetRank(costsAndHeuristics, q[j])
    ensures multiset(q') == multiset(q) - multiset{id}
    ensures Distinct(q') && SlotsConsistent(q', depthParentHeap')
    ensures |depthParentHeap'| == |depthParentHeap|
    ensures forall k :: 0 <= k < |depthParentHeap| && k % 3 != 2 ==> depthParentHeap'[k] == depthParentHeap[k]
  {
    var best := ArgMinRank(q, costsAndHeuristics);
    id := q[best];
    q' := RemoveSwapLast(q, best);
    depthParentHeap' := SetHeapIdx(depthParentHeap, q[|q| - 1], best);
    DeleteMinPost(q, depthParentHeap, best);
  }

  /** The scan for a queued id of minimal rank. */
  method ArgMinRank(q: seq<nat>, costsAndHeuristics: seq<real>) returns (best: nat)
    requires |q| > 0 && RanksDefined(q, costsAndHeuristics)
    ensures best < |q|
    ensures forall j :: 0 <= j < |q| ==> GetRank(costsAndHeuristics, q[best]) <= GetRank(costsAndHeuristics, q[j])
  {
    best := 0;
    var i := 1;
    while i < |q|
      invariant 0 <= best < i <= |q|
      invariant forall j :: 0 <= j < i ==> GetRank(costsAndHeuristics, q[best]) <= GetRank(costsAndHeuristics, q[j])
    {
      if GetRank(costsAndHeuristics, q[i]) < GetRank(costsAndHeuristics, q[best]) {
        best := i;
      }
      i := i + 1;
    }
  }

  /** Removing the id at `best` by moving the last id into its slot leaves
      a duplicate-free queue of exactly the other ids, with consistent slots,
      and changes no field other than a heap index. */
  lemma DeleteMinPost(q: seq<nat>, depthParentHeap: seq<int>, best: nat)
    requires best < |q| && Distinct(q) && SlotsConsistent(q, depthParentHeap)
    ensures var q' := RemoveSwapLast(q, best);
      var dph' := SetHeapIdx(depthParentHeap, q[|q| - 1], best);
      && q[best] !in q'
      && multiset(q') == multiset(q) - multiset{q[best]}
      && Distinct(q') && SlotsConsistent(q', dph')
      && |dph'| == |depthParentHeap|
      && forall k :: 0 <= k < |depthParentHeap| && k % 3 != 2 ==> dph'[k] == depthParentHeap[k]
  {
    RemoveSwapLastMultiset(q, best);
    RemoveSwapLastDistinct(q, best);
    RemoveSwapLastSlots(q, depthParentHeap, best);
  }

  /** The queue after the element at `best` is replaced by the last one
      and the last slot is dropped. */
  function RemoveSwapLast(q: seq<nat>, best: nat): (q': seq<nat>)
    requires best < |q|
    ensures |q'| == |q| - 1
    ensures forall k :: 0 <= k < |q'| ==> q'[k] == (if k == best then q[|q| - 1] else q[k])
  {
    if best == |q| - 1 then q[..best]
    else q[..best] + [q[|q| - 1]] + q[best + 1..|q| - 1]
  }

  lemma RemoveSwapLastMultiset(q: seq<nat>, best: nat)
    requires best < |q|
    ensures multiset(RemoveSwapLast(q, best)) == multiset(q) - multiset{q[best]}
  {
    var last := |q| - 1;
    if best == last {
      assert q == q[..best] + [q[best]];
    } else {
      assert q == q[..best] + [q[best]] + q[best + 1..last] + [q[last]];
    }
  }

  lemma RemoveSwapLastDistinct(q: seq<nat>, best: nat)
    requires best < |q| && Distinct(q)
    ensures Distinct(RemoveSwapLast(q, best)) && q[best] !in RemoveSwapLast(q, best)
  {
    var last := |q| - 1;
    var q' := RemoveSwapLast(q, best);
    forall a, b | 0 <= a < b < |q'|
      ensures q'[a] != q'[b]
    {
      var a0 := if a == best then last else a;
      var b0 := if b == best then last else b;
      assert q'[a] == q[a0] && q'[b] == q[b0] && a0 != b0;
    }
    forall k | 0 <= k < |q'|
      ensures q'[k] != q[best]
    {
      var k0 := if k == best then last else k;
      assert q'[k] == q[k0] && k0 != best;
    }
  }

  lemma RemoveSwapLastSlots(q: seq<nat>, depthParentHeap: seq<int>, best: nat)
    requires best < |q| && Distinct(q) && SlotsConsistent(q, depthParentHeap)
    ensures SlotsConsistent(RemoveSwapLast(q, best), SetHeapIdx(depthParentHeap, q[|q| - 1], best))
  {
    var last := |q| - 1;
    var q' := RemoveSwapLast(q, best);
    var dph' := SetHeapIdx(depthParentHeap, q[last], best);
    forall k | 0 <= k < |q'|
      ensures HeapArrayIdx(q'[k]) < |dph'| && GetHeapIdx(dph', q'[k]) == k
    {
      if k != best {
        assert q'[k] == q[k] && q[k] != q[last];
        assert HeapArrayIdx(q[k]) != HeapArrayIdx(q[last]);
      }
    }
  }

  /** After removing id, the queue holds exactly the other members. */
  lemma RemovedMembers(q: seq<nat>, q': seq<nat>, id: nat)
    requires multiset(q') == multiset(q) - multiset{id} && id !in q'
    ensures forall x :: x in q' <==> x in q && x != id
  {
    forall x
      ensures x in q' <==> x in q && x != id
    {
      assert x in q' <==> x in multiset(q');
      assert x in q <==> x in multiset(q);
    }
  }
}

=== FILE: path_map.dfy ===
/** The grid oracle the search consults (`IAStarPathMap`) and the move
    relation it induces: which neighbour of a node the search may enter, and
    what a walk of such moves is. */
module PathMap {
  import opened HexGrid

  /** The entity asking for a path (`IPathCalculatable`): its current
      position and an identity the map may use to decide what blocks it. */
  datatype Requester = Requester(x: Short, y: Short, id: int)

  /** The map as seen by the engine: blocking (per requester), the
      connectivity partition of a tile, and the cost of one move between
      adjacent tiles. The open/closed visualisation hooks are not part of
      the model. */
  datatype PathMap = PathMap(
    isBlocked: (Requester, int, int) -> bool,
    blockedPartition: (int, int) -> int,
    cost: (int, int, int, int) -> real)

  /** Everything that decides whether one step of a search is allowed:
      the map, the requester, the grid extent, the direction delta table
      and the `blockedAtStart` flag fixed for the whole search. */
  datatype Moves = Moves(
    pathMap: PathMap,
    requester: Requester,
    grid: Grid,
    deltas: seq<(Byte, Byte)>,
    blockedAtStart: bool)

  predicate IsBlocked(m: Moves, x: int, y: int)
  {
    m.pathMap.isBlocked(m.requester, x, y)
  }

  /** `isValidPosition`: inside the grid, and either free or the search
      started on a blocked tile. The flag lifts the blocking test for every
      neighbour of the search, not only for the first step. */
  predicate IsValidPosition(m: Moves, x: int, y: int)
  {
    InBounds(m.grid, x, y) && (!IsBlocked(m, x, y) || m.blockedAtStart)
  }

  /** The neighbour in direction d, computed as the source does: the sum is
      narrowed back to a `short`. */
  function Neighbor(x: int, y: int, d: (Byte, Byte)): (int, int)
  {
    (ToShort(x + d.0), ToShort(y + d.1))
  }

  /** b is reached from a by one delta of the table and may be entered. */
  ghost predicate IsStep(m: Moves, a: (int, int), b: (int, int))
  {
    exists k :: 0 <= k < |m.deltas| && b == (a.0 + m.deltas[k].0, a.1 + m.deltas[k].1)
                && IsValidPosition(m, b.0, b.1)
  }

  /** w is a sequence of allowed steps starting next to `from` (the start
      itself is not part of w). */
  ghost predicate IsWalk(m: Moves, from: (int, int), w: seq<(int, int)>)
    decreases |w|
  {
    |w| == 0 || (IsStep(m, from, w[0]) && IsWalk(m, w[0], w[1..]))
  }

  /** Computing a neighbour with the narrowing cast and then testing it is
      the same as stepping by the plain delta: the cast can only wrap onto
      a coordinate outside the grid. */
  lemma NeighborIsStep(m: Moves, x: int, y: int, k: int)
    requires InBounds(m.grid, x, y) && 0 <= k < |m.deltas|
    ensures var nb := Neighbor(x, y, m.deltas[k]);
            IsValidPosition(m, nb.0, nb.1) <==> IsValidPosition(m, x + m.deltas[k].0, y + m.deltas[k].1)
    ensures var nb := Neighbor(x, y, m.deltas[k]);
            IsValidPosition(m, nb.0, nb.1) ==> nb == (x + m.deltas[k].0, y + m.deltas[k].1) && IsStep(m, (x, y), nb)
  {
    NoWrapInBounds(x, m.deltas[k].0, m.grid.width);
    NoWrapInBounds(y, m.deltas[k].1, m.grid.height);
  }

  /** When the start is free, a walk never enters a blocked tile. */
  lemma {:induction false} WalkAvoidsBlocked(m: Moves, from: (int, int), w: seq<(int, int)>)
    requires !m.blockedAtStart && IsWalk(m, from, w)
    ensures forall k :: 0 <= k < |w| ==> InBounds(m.grid, w[k].0, w[k].1) && !IsBlocked(m, w[k].0, w[k].1)
    decreases |w|
  {
    if |w| > 0 {
      WalkAvoidsBlocked(m, w[0], w[1..]);
      forall k | 0 < k < |w|
        ensures InBounds(m.grid, w[k].0, w[k].1) && !IsBlocked(m, w[k].0, w[k].1)
      {
        assert w[k] == w[1..][k - 1];
      }
    }
  }
}

=== FILE: test_tile.dfy ===
/** `TestTile`: a map tile of the graphics test harness, whose landscape is
    derived from its height and river flag, and whose identity is its
    position. What stands on the tile (movable, building, stack, map
    object) is kept by identity only. */
module TestTile {
  import opened Wrappers
  import opened HexGrid

  /** The values of `ELandscapeType` a test tile can report. */
  datatype LandscapeType = Water1 | Sand | Grass | Mountain | Snow | River1

  /** `ShortPoint2D`. */
  datatype Point = Point(x: Short, y: Short)

  datatype Tile = Tile(
    x: Short,
    y: Short,
    height: Byte,
    river: bool,
    movable: Option<int>,
    building: Option<int>,
    stack: Option<int>,
    mapObject: Option<int>,
    player: Byte)

  /** The constructor: no river, nothing on the tile, player -1. */
  function NewTile(x: Short, y: Short, height: Byte): (t: Tile)
    ensures t.x == x && t.y == y && t.height == height && !t.river && t.player == -1
    ensures t.movable.None? && t.building.None? && t.stack.None? && t.mapObject.None?
  {
    Tile(x, y, height, false, None, None, None, None, -1)
  }

  function SetRiver(t: Tile, river: bool): (t': Tile)
    ensures t'.river == river && t' == t.(river := river)
  {
    t.(river := river)
  }

  /** `getLandscapeType`: a river tile is always river; otherwise the
      height alone decides, in bands 0, up to 3 (negative heights
      included), 4 to 10, 11 to 15, and above. */
  function GetLandscapeType(t: Tile): (r: LandscapeType)
    ensures r == River1 <==> t.river
    ensures r == Water1 <==> !t.river && t.height == 0
    ensures r == Sand <==> !t.river && t.height != 0 && t.height <= 3
    ensures r == Grass <==> !t.river && 4 <= t.height <= 10
    ensures r == Mountain <==> !t.river && 11 <= t.height <= 15
    ensures r == Snow <==> !t.river && t.height > 15
  {
    if t.river then River1
    else if t.height == 0 then Water1
    else if t.height <= 3 then Sand
    else if t.height <= 10 then Grass
    else if t.height <= 15 then Mountain
    else Snow
  }

  /** The order of the land bands from the shore upwards. */
  function Elevation(l: LandscapeType): int
  {
    match l
    case Water1 => 0
    case Sand => 1
    case Grass => 2
    case Mountain => 3
    case Snow => 4
    case River1 => -1
  }

  /** Only the river flag and the height matter: the position and whatever
      stands on the tile do not. */
  lemma LandscapeIgnoresRest(a: Tile, b: Tile)
    requires a.river == b.river && a.height == b.height
    ensures GetLandscapeType(a) == GetLandscapeType(b)
  {
  }

  /** Setting the river flag overrides every height. */
  lemma RiverOverridesHeight(t: Tile)
    ensures GetLandscapeType(SetRiver(t, true)) == River1
    ensures GetLandscapeType(SetRiver(t, false)) != River1
  {
  }

  /** Above sea level a higher tile is never in a lower band. */
  lemma LandscapeMonotone(a: Tile, b: Tile)
    requires !a.river && !b.river && 0 < a.height <= b.height
    ensures 1 <= Elevation(GetLandscapeType(a)) <= Elevation(GetLandscapeType(b))
  {
  }

  /** The band boundaries: each band starts right after the previous one
      ends. */
  lemma LandscapeBoundaries(t: Tile)
    requires !t.river
    ensures t.height == 3 ==> GetLandscapeType(t) == Sand && GetLandscapeType(t.(height := 4)) == Grass
    ensures t.height == 10 ==> GetLandscapeType(t) == Grass && GetLandscapeType(t.(height := 11)) == Mountain
    ensures t.height == 15 ==> GetLandscapeType(t) == Mountain && GetLandscapeType(t.(height := 16)) == Snow
    ensures t.height == -1 ==> GetLandscapeType(t) == Sand && GetLandscapeType(t.(height := 0)) == Water1
  {
  }

  /** `getPos`. */
  function GetPos(t: Tile): (p: Point)
    ensures p.x == t.x && p.y == t.y
  {
    Point(t.x, t.y)
  }

  /** `equals(TestTile)`: two tiles are equal exactly when they stand at
      the same position. This is an overload taking a non-null tile, not
      an override of `Object.equals`, which stays identity. */
  function Equals(a: Tile, b: Tile): (r: bool)
    ensures r <==> GetPos(a) == GetPos(b)
  {
    b.x == a.x && b.y == a.y
  }

  /** `equals` is an equivalence relation. */
  lemma EqualsIsEquivalence(a: Tile, b: Tile, c: Tile)
    ensures Equals(a, a)
    ensures Equals(a, b) ==> Equals(b, a)
    ensures Equals(a, b) && Equals(b, c) ==> Equals(a, c)
  {
  }

  /** Tiles at the same position are equal whatever their height, river
      flag, occupants and owner, so equal tiles may report different
      landscapes. */
  lemma EqualsIgnoresContent(t: Tile, height: Byte, river: bool, movable: Option<int>, player: Byte)
    ensures Equals(t, t.(height := height, river := river, movable := movable, player := player))
    ensures var u := t.(height := 0, river := false);
      Equals(t.(height := 16, river := false), u)
      && GetLandscapeType(t.(height := 16, river := false)) != GetLandscapeType(u)
  {
  }
}

=== FILE: wrappers.dfy ===
/** Java's nullable references, made explicit. */
module Wrappers {
  datatype Option<+T> = None | Some(value: T)
}
